=== FILE: README.md ===
# SportsBet front-end, modelled in Dafny

This project models the client-side logic of a Next.js sports-betting
front-end in Dafny. The app has a demo user, communities, multi-option
bets, leaderboards and a bet-creation wizard. All data comes from a static
mock dataset, and the session lives in the browser's `localStorage`.

The model covers the following:

- The mock dataset and the consistency facts its records satisfy.
- The bet card: participant totals, percentage shares, the "Your Pick" badge, the Place Bet button and the payout banner.
- The leaderboard row: rank icons, the badge strip, the weekly change and the stats row with its win-rate colour bands.
- The community card.
- The navigation bar: the active-section rule, the notification badge and the mobile menu.
- The quick create-bet dialog.
- The dashboard, communities, leaderboards and My Bets pages: their filters, tabs, counts and derived headers.
- The authentication provider: start-up check, sign-in, sign-up, sign-out and profile updates against a modelled storage slot.
- The four-step bet-creation wizard.

Rendering is modelled by what a conditional JSX child produces (`Jsx.Rendered`): nothing, a stray text node, or the element. This matters because React prints a falsy number `0` as the text "0".

Modules, one per source file: `Domain` (records), `MockData`, `BetCard`, `LeaderboardItem`,
`CommunityCard`, `MainNav`, `CreateBetModal`, `HomePage`, `CommunitiesPage`,
`LeaderboardsPage`, `MyBets`, `Session`, `BetWizard`. They are supported by
`Wrappers` (`Option`), `Jsx`, `Text` (the JavaScript string built-ins used)
and `Seqs` (filter, take, map, subsequence).

Inputs the original reads from the environment are parameters:
- The clock: `expired` on the bet card, `now` on sign-up.
- The router's pathname.
- The storage slot's content.

## Model

| member | source | states |
|---|---|---|
| Domain.WinRateTier | src/components/ui/leaderboard-item.tsx:194-202 | the colour band is Strong exactly from 60 up and Weak exactly below 45 |
| Domain.WinRateTierMonotone | src/components/ui/community-card.tsx:129-140 | a higher win rate never falls into a lower colour band |
| Jsx.NumberGuard | src/components/ui/leaderboard-item.tsx:216 | `{n && el}` renders the element iff n is present and non-zero, the text "0" iff n is 0, otherwise nothing |
| Jsx.BoolGuard | src/components/ui/community-card.tsx:80 | `{b && el}` renders the element iff b, and never a text node |
| Jsx.StringGuard | src/components/ui/community-card.tsx:173 | `{s && el}` renders the element iff s is present and non-empty, and never a text node |
| Text.Trim | src/app/bets/create/page.tsx:118 | `trim()` is empty exactly for an all-white-space string; otherwise it starts and ends with a visible character |
| Text.Lower | src/app/communities/page.tsx:53-54 | `toLowerCase()` keeps the length and folds each character |
| Text.LowerIdempotent | src/app/communities/page.tsx:53-54 | lower-casing twice equals lower-casing once |
| Text.ContainsIffOccurs | src/app/communities/page.tsx:53-54 | `includes` holds iff the substring occurs at some index |
| Text.NatToStringInjective | src/components/auth/auth-provider.tsx:123 | distinct numbers render to distinct decimal strings |
| Text.IntToString | src/components/ui/bet-card.tsx:155 | a number renders with a leading minus exactly when it is negative, else as its digits |
| Text.IntToStringHasNoSlash | src/components/ui/bet-card.tsx:155 | a rendered integer never contains '/' |
| MockData.RoundedPercent | src/lib/mock-data.ts:337-357 | the result is 100·won/placed rounded to the nearest integer, halves up |
| MockData.MockUserWindowsConsistent | src/lib/mock-data.ts:337-357 | each stats window's win rate is the rounded share of bets won, and the current streak is at most the longest |
| MockData.MockUserHeadlineIsAllTime | src/lib/mock-data.ts:322-325 | the demo user's points, win rate and bet count equal its all-time stats |
| MockData.MockLeaderboardOrdered | src/lib/mock-data.ts:225-314 | five entries ranked 1..5 with strictly decreasing points |
| MockData.MockBetsParticipantsAgree | src/lib/mock-data.ts:105-223 | each bet's option participants sum to the bet's participants (247, 1834, 567) |
| MockData.MockCommunityStatsAgree | src/lib/mock-data.ts:387-398 | the category counts sum to the community total and the percentages to 100 |
| MockData.CurrentUserEntryAgrees | src/lib/mock-data.ts:262-279 | exactly the third entry is flagged current, and it carries the demo user's id, rank and points |
| MockData.JoinedCommunitiesAgree | src/lib/mock-data.ts:328-331 | the demo user's joined ids are exactly the ids of the communities flagged joined, in order |
| BetCard.TotalOptionParticipants | src/components/ui/bet-card.tsx:95 | with non-negative counts the total is non-negative and bounds every option's count |
| BetCard.TotalOptionParticipantsConcat | src/components/ui/bet-card.tsx:95 | the total of a concatenation is the sum of the totals, and one option's total is its own count, so the total is the sum of the counts |
| BetCard.Percentage | src/components/ui/bet-card.tsx:190 | a share is 0 with no participants, lies in [0,100] for a valid count, and is 100 for the whole |
| BetCard.PercentageSumIsShare | src/components/ui/bet-card.tsx:190 | the shares of a list of options sum to that list's share of the total |
| BetCard.SharesAddUpTo100 | src/components/ui/bet-card.tsx:95-193 | on a card with participants the displayed shares sum to exactly 100 |
| BetCard.NoPickWithoutMatch | src/components/ui/bet-card.tsx:191 | when no option id equals the user's choice, no option shows "Your Pick" |
| BetCard.AtMostOnePick | src/components/ui/bet-card.tsx:191 | with distinct option ids, at most one option shows "Your Pick" |
| BetCard.PlaceBetShown | src/components/ui/bet-card.tsx:270 | Place Bet is offered only on an active, unexpired card given `onParticipate`, never once a non-empty pick exists, and always when those hold and the pick is absent or empty |
| BetCard.Click | src/components/ui/bet-card.tsx:270-292 | a click on either button invokes `onView` iff it is given, at most once, and never `onParticipate` |
| BetCard.PlaceBetActsAsViewDetails | src/components/ui/bet-card.tsx:270-292 | Place Bet invokes the same callbacks as View Details, and passing `onParticipate` does not change them |
| BetCard.PayoutBanner | src/components/ui/bet-card.tsx:237-262 | the banner appears iff there is a payout; its headline names the status; the `+` shows iff not lost |
| BetCard.PlayersLabel | src/components/ui/bet-card.tsx:154-155 | the label is the count alone without a maximum, "count/max" for a non-zero maximum, and the count followed by a stray "0" for a maximum of 0 |
| LeaderboardItem.FromEntry | src/app/leaderboards/page.tsx:270-276 | spreading an entry passes all its fields and neither display switch |
| LeaderboardItem.Resolve | src/components/ui/leaderboard-item.tsx:72-75 | omitted props default to no badges, not current, stats shown, not compact; given ones are kept |
| LeaderboardItem.RankDisplay | src/components/ui/leaderboard-item.tsx:79-102 | crown iff rank 1, trophy iff 2, medal iff 3, otherwise "#rank" |
| LeaderboardItem.BadgesDisplay | src/components/ui/leaderboard-item.tsx:135-151 | the strip appears iff there are badges and the row is not compact; it shows the first min(3,n) badges and "+n-3" iff more than 3 |
| LeaderboardItem.WeeklyChangeDisplay | src/components/ui/leaderboard-item.tsx:166-186 | shown iff known and not compact; up iff positive, down iff negative, flat otherwise, carrying the amount |
| LeaderboardItem.StreakAsWritten | src/components/ui/leaderboard-item.tsx:216 | the streak shows iff positive, and a streak of 0 prints "0" |
| LeaderboardItem.StreakIndicator | src/components/ui/leaderboard-item.tsx:216 | corrected: the streak shows iff positive and never prints a stray text |
| LeaderboardItem.StreakZeroLeaks | src/components/ui/leaderboard-item.tsx:216 | the two streak renderings differ exactly on a streak of 0 |
| LeaderboardItem.StatsRowDisplay | src/components/ui/leaderboard-item.tsx:192-222 | the row appears iff stats are on, not compact and some number is truthy; a stray "0" appears iff all are falsy and the streak is 0; the win rate carries its band |
| LeaderboardItem.Render | src/components/ui/leaderboard-item.tsx:77-225 | the row's highlight and "You" badge follow the resolved current-user flag; its parts are the displays above applied to the resolved settings |
| LeaderboardItem.CompactHidesDetails | src/components/ui/leaderboard-item.tsx:135-192 | a compact row shows no badges, no weekly change and no stats |
| CommunityCard.FromCommunity | src/app/communities/page.tsx:158 | spreading a community passes its joined flag, members, win rate and activity |
| CommunityCard.TopMembersDisplay | src/components/ui/community-card.tsx:149-166 | avatars appear iff there are members; the first min(4,n) show and "+n-4" iff more than 4 |
| CommunityCard.WinRateDisplay | src/components/ui/community-card.tsx:129-140 | the block appears iff the rate is non-zero, a rate of 0 prints "0", and the dot and the text share one band |
| CommunityCard.Render | src/components/ui/community-card.tsx:52-176 | the joined badge shows iff joined; activity shows iff non-empty; missing members hide the avatar stack, and given members show as the first four avatars plus the "+n" overflow |
| MainNav.IsActive | src/components/navigation/main-nav.tsx:99-100 | nothing is active without a path; an href is active on its own path, only on paths it prefixes, the root only on "/", and every other href on every path it prefixes |
| MainNav.DashboardOnlyAtRoot | src/components/navigation/main-nav.tsx:99-100 | the dashboard is active exactly on "/" |
| MainNav.SectionActiveBelow | src/components/navigation/main-nav.tsx:99-100 | each other section is active on its own path and every sub-path |
| MainNav.RawPrefixQuirk | src/components/navigation/main-nav.tsx:100 | "/communitiesX" and "/my-bets-archive" also activate a section, since the prefix test is character-wise |
| MainNav.AtMostOneActive | src/components/navigation/main-nav.tsx:41-100 | no path makes two sections active |
| MainNav.NotificationBadgeAsWritten | src/components/navigation/main-nav.tsx:133-139 | a count of 0 prints "0"; a positive count shows a badge, "9+" iff above 9 |
| MainNav.NotificationBadge | src/components/navigation/main-nav.tsx:133-139 | corrected: a badge iff the count is positive, the count up to 9 and "9+" above; never a stray text |
| MainNav.NotificationZeroLeaks | src/components/navigation/main-nav.tsx:133 | the two badges differ exactly on a count of 0 |
| MainNav.NotificationBadgeShort | src/components/navigation/main-nav.tsx:139 | a shown badge is at most two characters |
| MainNav.ToggleMenu | src/components/navigation/main-nav.tsx:160 | the menu button flips the mobile menu |
| MainNav.FollowMobileLink | src/components/navigation/main-nav.tsx:190 | following a mobile link closes the menu |
| MainNav.ToggleMenuTwice | src/components/navigation/main-nav.tsx:160 | toggling twice restores the menu state |
| CreateBetModal.CaptionOf | src/components/create-bet-modal.tsx:240-245 | the lookup is absent iff no entry has the value; a found caption belongs to an entry with that value |
| CreateBetModal.CaptionOfAt | src/components/create-bet-modal.tsx:240-245 | an entry whose value no earlier entry carries is the one the lookup returns |
| CreateBetModal.Edit | src/components/create-bet-modal.tsx:104-223 | typing sets exactly the edited field and leaves the other six and the open flag unchanged |
| CreateBetModal.SetOpen | src/components/create-bet-modal.tsx:78 | opening or closing keeps the draft |
| CreateBetModal.Cancel | src/components/create-bet-modal.tsx:263 | Cancel closes the dialog and keeps the draft |
| CreateBetModal.HandleSubmit | src/components/create-bet-modal.tsx:37-52 | submitting closes the dialog and empties every field |
| CreateBetModal.SubmitEnabled | src/components/create-bet-modal.tsx:270 | the submit button is enabled iff title, sport, bet type and amount are all non-empty |
| CreateBetModal.PressSubmit | src/components/create-bet-modal.tsx:106-270 | the form submits iff the button is enabled and the required inputs are filled, else nothing changes |
| CreateBetModal.SubmitResets | src/components/create-bet-modal.tsx:37-52 | after a submission the dialog is back to its initial state with the button disabled |
| CreateBetModal.CancelKeepsDraft | src/components/create-bet-modal.tsx:78-263 | cancelling and reopening brings back the same draft |
| CreateBetModal.EnabledButNotSubmitted | src/components/create-bet-modal.tsx:184-270 | with an empty expiry the button is enabled but the browser refuses the submission |
| CreateBetModal.PreviewDisplay | src/components/create-bet-modal.tsx:232-252 | the preview appears iff there is a title, and each badge iff its field is set; the sport badge holds the sport list's caption for the value, the bet-type badge the bet-type list's; the amount reads "n points" |
| CreateBetModal.PickedSportShowsCaption | src/components/create-bet-modal.tsx:240 | a sport picked from the list finds its caption |
| HomePage.CommunitiesFor | src/app/page.tsx:36-38 | "all" keeps every community, in order; otherwise exactly those of the selected category |
| HomePage.BetsFor | src/app/page.tsx:40-42 | "all" keeps every bet; otherwise exactly those of the selected category |
| HomePage.AgreesWithCommunitiesPage | src/app/page.tsx:36-38 | the dashboard grid equals the communities page's list for the same category with no search and the "all" filter |
| HomePage.TopPerformers | src/app/page.tsx:290-296 | the first min(5,n) entries; each row carries its entry's user, rank, points, badges, current-player flag, weekly change, win rate, bet count and streak, and is compact and without stats |
| HomePage.TopPerformersAreCompact | src/app/page.tsx:290-296 | no Top Performers row shows badges, weekly change or stats |
| CommunitiesPage.FilteredCommunities | src/app/communities/page.tsx:52-63 | a community is listed iff it matches the search, the tab and the filter; order is kept |
| CommunitiesPage.EmptySearchMatchesAll | src/app/communities/page.tsx:53-54 | the empty search matches every community |
| CommunitiesPage.SearchIgnoresCase | src/app/communities/page.tsx:53-54 | searching the lower-cased query finds the same communities |
| CommunitiesPage.CategoryNarrows | src/app/communities/page.tsx:55 | a category tab lists a subsequence of what "all" lists |
| CommunitiesPage.UnknownFilterShowsNothing | src/app/communities/page.tsx:56-61 | a filter value outside the five buttons lists nothing |
| CommunitiesPage.CategoryCountFull | src/app/communities/page.tsx:35-42 | a tab counts every community iff all are in its category |
| CommunitiesPage.CategoryTabs | src/app/communities/page.tsx:35-42 | six tabs: "all" counts everything, each sport tab counts its category |
| CommunitiesPage.SportCountsCoverAll | src/app/communities/page.tsx:35-42 | with sport-keyed communities the five sport counts add up to the total |
| CommunitiesPage.TabCountsAddUp | src/app/communities/page.tsx:35-42 | the sport tabs' counts add up to the "All Sports" count |
| CommunitiesPage.MyCommunities | src/app/communities/page.tsx:65 | exactly the first min(3, #joined) joined communities, in order; empty iff none is joined |
| CommunitiesPage.Featured | src/app/communities/page.tsx:271-274 | exactly the first min(3, #qualifying) communities above 60% win rate, in order; empty iff none qualifies |
| CommunitiesPage.ClearFilters | src/app/communities/page.tsx:244-248 | Clear Filters resets search, filter and tab |
| CommunitiesPage.ClearFiltersShowsAll | src/app/communities/page.tsx:244-248 | after Clear Filters every community is listed, in order |
| LeaderboardsPage.ExtendedLeaderboardOrdered | src/app/leaderboards/page.tsx:33-121 | the extended board has 10 entries ranked 1..10, strictly decreasing points, and begins with the shared board |
| LeaderboardsPage.TopThree | src/app/leaderboards/page.tsx:123 | the podium is the first min(3,n) entries |
| LeaderboardsPage.Others | src/app/leaderboards/page.tsx:124 | podium followed by the rest is the whole board |
| LeaderboardsPage.ToggleStats | src/app/leaderboards/page.tsx:155 | the button flips showStats and keeps both selectors |
| LeaderboardsPage.SetTimeFrame | src/app/leaderboards/page.tsx:222-232 | selecting a time frame changes only the time frame |
| LeaderboardsPage.SetCategory | src/app/leaderboards/page.tsx:234-244 | selecting a sport changes only the sport |
| LeaderboardsPage.RankingRows | src/app/leaderboards/page.tsx:266-300 | one row per entry carrying its user, rank, points, badges, weekly change, win rate, bet count and streak, with the page's showStats and a flag set iff the entry is the demo user's |
| LeaderboardsPage.Rankings | src/app/leaderboards/page.tsx:266-300 | the podium rows followed by the other rows are exactly the ranking rows |
| LeaderboardsPage.RankingRowsConcat | src/app/leaderboards/page.tsx:266-300 | the rows of two boards laid end to end are their rows laid end to end |
| LeaderboardsPage.RowsFollowShowStats | src/app/leaderboards/page.tsx:266-300 | two page states with the same showStats give the same rows |
| LeaderboardsPage.RankingsIgnoreSelectors | src/app/leaderboards/page.tsx:222-300 | the time frame and sport selectors do not change the rankings |
| LeaderboardsPage.SportColumn | src/app/leaderboards/page.tsx:320-327 | the first min(5,n) entries, renumbered 1.., compact and without stats |
| LeaderboardsPage.SportCards | src/app/leaderboards/page.tsx:307-328 | four sport cards, all listing the same column |
| LeaderboardsPage.SportColumnKeepsSequentialRanks | src/app/leaderboards/page.tsx:320-327 | on a board ranked 1,2,3,… renumbering changes no rank |
| LeaderboardsPage.CurrentUserIsThird | src/app/leaderboards/page.tsx:276 | on the extended board exactly the third entry is highlighted |
| LeaderboardsPage.FlagAgreesWithStoredFlag | src/app/leaderboards/page.tsx:276 | the recomputed current-user flag matches the flag stored on the shared board |
| MyBets.ActiveBets | src/app/my-bets/page.tsx:104 | exactly the active bets, in order |
| MyBets.CompletedBets | src/app/my-bets/page.tsx:105 | exactly the completed bets, in order |
| MyBets.WonBets | src/app/my-bets/page.tsx:106 | exactly the completed bets whose payout is won |
| MyBets.LostBets | src/app/my-bets/page.tsx:107 | exactly the completed bets whose payout is lost |
| MyBets.StatusPartition | src/app/my-bets/page.tsx:104-105 | active, completed and cancelled bets partition the bets as a multiset |
| MyBets.ActiveAndCompletedCoverAll | src/app/my-bets/page.tsx:104-105 | without cancelled bets the two tabs hold every bet exactly once |
| MyBets.WonAndLostDisjoint | src/app/my-bets/page.tsx:106-107 | no bet is both won and lost, and together they are at most the completed bets |
| MyBets.PayoutSum | src/app/my-bets/page.tsx:109-111 | the sum is non-negative for gains only, non-positive for losses only, 0 without payouts |
| MyBets.PayoutSumConcat | src/app/my-bets/page.tsx:109-111 | the sum is additive over concatenation, and one bet contributes `payout?.amount \|\| 0` |
| MyBets.PayoutSumSplit | src/app/my-bets/page.tsx:109-111 | a filter's sum plus its complement's sum is the whole sum |
| MyBets.TotalWinnings | src/app/my-bets/page.tsx:109-111 | the winnings are non-negative when no completed bet lost points |
| MyBets.TotalWinningsConcat | src/app/my-bets/page.tsx:109-111 | the winnings are additive over concatenation; one bet adds its payout (0 when missing) if completed and nothing otherwise |
| MyBets.WinningsSplitByOutcome | src/app/my-bets/page.tsx:106-111 | winnings are the won payouts plus the other completed bets' payouts |
| MyBets.WinRate | src/app/my-bets/page.tsx:113-115 | 0 with nothing completed, otherwise exactly 100·won/completed; in [0,100], 0 iff nothing won, 100 iff every completed bet won |
| MyBets.RatioPercent | src/app/my-bets/page.tsx:113-115 | the percentage p with p·done = 100·won (0 when done is 0), in [0,100], 0 iff none won, 100 iff all won |
| MyBets.WinningsText | src/app/my-bets/page.tsx:198 | the figure starts with '+' iff non-negative and '-' iff negative, then the magnitude |
| MyBets.TabBets | src/app/my-bets/page.tsx:118 | the "active" tab lists the active bets, any other the completed ones |
| MyBets.FilteredBets | src/app/my-bets/page.tsx:117-129 | "won"/"lost" replace the tab's list, "all" keeps it, any other chip narrows it by category |
| MyBets.OutcomeFiltersIgnoreTab | src/app/my-bets/page.tsx:120-123 | "won" and "lost" list the same bets on either tab |
| MyBets.FilteredBetsInOrder | src/app/my-bets/page.tsx:117-129 | every listing is a subsequence of the player's bets |
| MyBets.UserBetsSummary | src/app/my-bets/page.tsx:33-115 | the demo data shows 2 active, 2 completed, 1 won, 1 lost, +750 points and a 50% win rate |
| MyBets.SummaryOfShape | src/app/my-bets/page.tsx:104-115 | any two-active, one-win, one-loss list yields those counts, the sum of the payouts and 50% |
| MyBets.SharedBetsHighlightNoPick | src/app/my-bets/page.tsx:33-55 | the picks stored on the three shared bets match none of their option ids |
| MyBets.NoPickForMarkedIds | src/app/my-bets/page.tsx:33-55 | a plain pick never matches a marked option id |
| MyBets.StanleyCupBetHighlightsOnePick | src/app/my-bets/page.tsx:56-101 | bet 4's pick marks exactly its third option |
| MyBets.NoPlaceBetButtons | src/app/my-bets/page.tsx:361-393 | no card on the page offers Place Bet, because every bet carries a pick |
| Session.Initial | src/components/auth/auth-provider.tsx:60-61 | on mount there is no user and loading is on |
| Session.CheckAuth | src/components/auth/auth-provider.tsx:63-88 | an empty slot seeds and stores the demo user; a readable slot restores its user; unreadable text is removed, the user kept; loading ends |
| Session.Load | src/components/auth/auth-provider.tsx:60-88 | a page load ends not loading, restoring a stored user |
| Session.LoadIsSynced | src/components/auth/auth-provider.tsx:63-88 | after every load the slot holds exactly the session's user, or nothing |
| Session.CorruptStoreRecovers | src/components/auth/auth-provider.tsx:74-80 | a corrupt slot leaves the visitor signed out, and the next load seeds the demo user |
| Session.Message | src/components/auth/auth-provider.tsx:103 | each thrown error carries a non-empty message |
| Session.SignIn | src/components/auth/auth-provider.tsx:90-111 | success iff email and password are non-empty: the stored user is the demo user with that email; failure throws "Invalid credentials" and keeps the session |
| Session.NewUser | src/components/auth/auth-provider.tsx:122-160 | a new account is "user-"+now, level 1, 1000 points, rank 999999, the New Player badge, and all-zero stats windows except 1000 all-time points earned |
| Session.NewUserIdsDistinct | src/components/auth/auth-provider.tsx:123 | accounts created at different instants get different ids |
| Session.SignUp | src/components/auth/auth-provider.tsx:113-173 | success iff name, email and password are non-empty, storing the new account; failure throws "All fields are required" and keeps the session |
| Session.SignOut | src/components/auth/auth-provider.tsx:175-189 | sign-out clears the user and the slot |
| Session.SignOutIdempotent | src/components/auth/auth-provider.tsx:175-189 | signing out twice equals signing out once |
| Session.SignOutThenReload | src/components/auth/auth-provider.tsx:69-82 | after sign-out a reload signs the demo user back in |
| Session.Merge | src/components/auth/auth-provider.tsx:194 | each field the update carries replaces the user's; the others stay |
| Session.MergeLaws | src/components/auth/auth-provider.tsx:194 | an empty update changes nothing, and two updates merge like their composition |
| Session.UpdateUser | src/components/auth/auth-provider.tsx:191-197 | signed in, the merged user is set and stored; signed out, nothing changes |
| Session.OperationsPreserveSynced | src/components/auth/auth-provider.tsx:90-197 | sign-in, sign-up, sign-out and update all keep the session and the slot in agreement |
| Session.ReloadKeepsUser | src/components/auth/auth-provider.tsx:69-73 | a synced, signed-in session reloads to the same user |
| BetWizard.Next | src/app/bets/create/page.tsx:97-101 | Next advances below step 4 and stays on 4 |
| BetWizard.Previous | src/app/bets/create/page.tsx:103-107 | Previous goes back above step 1 and stays on 1 |
| BetWizard.NextThenPrevious | src/app/bets/create/page.tsx:97-107 | forward then back returns to the same step below the last |
| BetWizard.IsStepValid | src/app/bets/create/page.tsx:115-128 | step 1 needs a non-blank title and description and a sport; step 2 a non-blank caption on every option; step 3 a date and a stake; step 4 is valid; other steps are not |
| BetWizard.AllCaptioned | src/app/bets/create/page.tsx:120 | the options pass iff every option's trimmed caption is non-empty |
| BetWizard.AllCaptionedIffNoneBlank | src/app/bets/create/page.tsx:120 | the options pass iff no caption consists of white space only |
| BetWizard.PressNext | src/app/bets/create/page.tsx:541-550 | Next advances iff the step is valid and changes nothing else |
| BetWizard.PressPrevious | src/app/bets/create/page.tsx:536 | Previous moves back one step, never below 1, and changes nothing else |
| BetWizard.StepStaysInRange | src/app/bets/create/page.tsx:97-107 | the step stays in 1..4 whatever is pressed |
| BetWizard.Progress | src/app/bets/create/page.tsx:69-70 | progress is 25·step, and 100 exactly on the last step |
| BetWizard.AddOption | src/app/bets/create/page.tsx:80-83 | one blank option is appended with id length+1; the others are unchanged |
| BetWizard.RemoveOption | src/app/bets/create/page.tsx:85-89 | with more than two options every copy of an option with that id goes and every other option keeps all its copies, in order; otherwise nothing changes |
| BetWizard.UpdateOption | src/app/bets/create/page.tsx:91-95 | the named field of every option with that id is set; everything else is unchanged |
| BetWizard.AvailableCommunities | src/app/bets/create/page.tsx:131-133 | all communities with no sport; otherwise exactly that sport's and the general ones |
| BetWizard.RemoveDropsAtMostOne | src/app/bets/create/page.tsx:85-89 | with distinct ids a removal drops at most one option, and none for an unknown id |
| BetWizard.DistinctIdsKeepTwo | src/app/bets/create/page.tsx:85-89 | with distinct ids a removal never leaves fewer than two options |
| BetWizard.RunAsWritten | src/app/bets/create/page.tsx:80-89 | a sequence of edits grows the list by at most one option per edit |
| BetWizard.DuplicateIdBreaksFloor | src/app/bets/create/page.tsx:80-89 | add, remove "2", add yields two options with id "3"; one caption edit changes both; removing "3" leaves one option |
| BetWizard.AddThirdOption | src/app/bets/create/page.tsx:80-83 | the first Add Option on the initial list appends an option with id "3" |
| BetWizard.RemoveSecondOption | src/app/bets/create/page.tsx:85-89 | removing "2" from options 1, 2, 3 leaves options 1 and 3 |
| BetWizard.RemoveDuplicatedOption | src/app/bets/create/page.tsx:85-89 | removing "3" from options 1, 3, 3 leaves option 1 alone |
| BetWizard.InitialListFresh | src/app/bets/create/page.tsx:64-67 | the two initial ids are distinct and below the corrected counter |
| BetWizard.AddFresh | src/app/bets/create/page.tsx:80-83 | corrected add: appends a blank option with the counter's id and keeps ids fresh |
| BetWizard.RemoveFresh | src/app/bets/create/page.tsx:85-89 | corrected remove: the page's removal, keeping ids fresh and at least two options |
| BetWizard.SubseqKeepsDistinct | src/app/bets/create/page.tsx:87 | filtering a list with distinct ids keeps them distinct |
| Seqs.FilterMultiplicity | src/app/bets/create/page.tsx:87 | `filter` keeps every copy of a passing element and no copy of a failing one |
| BetWizard.RunFresh | src/app/bets/create/page.tsx:80-89 | corrected edits keep ids fresh and never go below two options |
| BetWizard.FreshNeverBelowTwo | src/app/bets/create/page.tsx:80-89 | from the initial list, no sequence of corrected edits leaves fewer than two options |

## Left out

- `src/components/PhoenixTracker.tsx`, `src/app/layout.tsx`, `src/app/auth/signin/page.tsx` and `src/app/communities/[id]/page.tsx` are context files, not part of this model.
- Simulated network delays (`setTimeout`), `async` and state-update races: each provider operation is one atomic step.
- JSON syntax: the storage slot holds a user or unreadable text. Text that parses to something other than a user object (such as `"null"`) is not modelled.
- The clock: whether a bet has expired and the "days left" figure are inputs or left out; the account id's timestamp is the `now` parameter.
- Number formatting: `toLocaleString`, `toFixed` and the `/1e6` pool figure are left out; integers render in plain decimal.
- Text.Lower: folds ASCII only. Unicode case mapping is not modelled.
- Styling: CSS classes, icons and colours other than the win-rate bands.
- `mockTrendingBets`: no page in the model reads it.
- MyBets.WinRate: the exact value is stated as 100·(won/completed); the product form p·done = 100·won is stated on `MyBets.RatioPercent`.
- Session.Merge: an update that sets a required field explicitly to `undefined` is not modelled. A patch field is either absent or a value.
- CreateBetModal.PressSubmit: the amount input's `min="1"` and the browser's datetime validation are not modelled; only `required` is.
- `console.log` and `alert` in both submit handlers are I/O. The wizard's final submit only logs.
- The My Bets achievements tab and the static stats cards are fixed text.
- The empty-list messages are fixed text.
- The wizard passes `notifications: []` to `MainNav` at src/app/bets/create/page.tsx:137. The model's count is a number, so an array is not modelled. An empty array is truthy and `[] > 0` is false, so the bar renders no badge there.
- The wizard's sport caption lookup at src/app/bets/create/page.tsx:130 only feeds display text.
- CommunitiesPage.CategoryCount: its contract states only the bound. The exact characterisation is `CommunitiesPage.CategoryCountFull` and `SportCountsCoverAll`.
- Two behaviours of the provider that the model keeps as they are:
  - src/components/auth/auth-provider.tsx:74-77: a stored value that fails to parse is removed, and the user stays signed out until the next load.
  - src/components/auth/auth-provider.tsx:191-197: `updateUser` with nobody signed in changes nothing and reports nothing.

## Findings

| source | as written | input that shows it | evidently intended | confidence | as-written member | corrected member |
|---|---|---|---|---|---|---|
| src/app/bets/create/page.tsx:80-89 | a new option's id is `length + 1`, which can repeat an id still in the list after a removal | add, remove "2", add: ids 1, 3, 3. Editing "3" edits both, and removing "3" leaves a single option | option ids stay unique, and the list never drops below two options | not executed | BetWizard.DuplicateIdBreaksFloor | BetWizard.FreshNeverBelowTwo |
| src/components/ui/leaderboard-item.tsx:216 | `{streak && streak > 0 && …}` evaluates to the number 0 for a zero streak | streak = 0 with stats shown | nothing rendered for a zero streak | not executed | LeaderboardItem.StreakAsWritten | LeaderboardItem.StreakIndicator |
| src/components/navigation/main-nav.tsx:133 | `{user.notifications && user.notifications > 0 && …}` evaluates to the number 0 | a signed-in user with 0 notifications | no badge and no text for zero notifications | not executed | MainNav.NotificationBadgeAsWritten | MainNav.NotificationBadge |

=== FILE: bet_card.dfy ===
/**
 * The bet card: participant totals, each option's share, the user's pick,
 * whether "Place Bet" is offered and what it does, the payout line and the
 * players label. The clock is an input: `expired` stands for
 * `new Date() > new Date(endDate)`.
 */
module BetCard {
  import opened Wrappers
  import opened Domain
  import opened Jsx
  import Text
  import Seqs

  /** `options.reduce((sum, o) => sum + o.participants, 0)`. */
  function TotalOptionParticipants(options: seq<BetOption>): (total: int)
    ensures (forall i :: 0 <= i < |options| ==> options[i].participants >= 0) ==>
      total >= 0 && forall i :: 0 <= i < |options| ==> options[i].participants <= total
  {
    if options == [] then 0
    else options[0].participants + TotalOptionParticipants(options[1..])
  }

  /** Totals add up across a split of the option list. */
  lemma {:induction false} TotalOptionParticipantsConcat(a: seq<BetOption>, b: seq<BetOption>)
    ensures TotalOptionParticipants(a + b) == TotalOptionParticipants(a) + TotalOptionParticipants(b)
    ensures forall o :: TotalOptionParticipants([o]) == o.participants
    decreases |a|
  {
    forall o: BetOption
      ensures TotalOptionParticipants([o]) == o.participants
    {
      assert [o][1..] == [];
    }
    if a == [] {
      assert a + b == b;
    } else {
      assert (a + b)[1..] == a[1..] + b;
      TotalOptionParticipantsConcat(a[1..], b);
    }
  }

  /** An option's share of all participants in percent; 0 when nobody has joined. */
  function Percentage(participants: int, total: int): (p: real)
    ensures total <= 0 ==> p == 0.0
    ensures 0 <= participants <= total ==> 0.0 <= p <= 100.0
    ensures total > 0 && participants == total ==> p == 100.0
  {
    if total > 0 then
      ShareBounds(participants, total);
      (participants as real * 100.0) / (total as real)
    else 0.0
  }

  lemma ShareBounds(participants: int, total: int)
    requires total > 0
    ensures var p := (participants as real * 100.0) / (total as real);
      (0 <= participants <= total ==> 0.0 <= p <= 100.0) && (participants == total ==> p == 100.0)
  {
    var p := (participants as real * 100.0) / (total as real);
    assert p * total as real == participants as real * 100.0;
  }

  function PercentageSum(options: seq<BetOption>, total: int): real {
    if options == [] then 0.0
    else Percentage(options[0].participants, total) + PercentageSum(options[1..], total)
  }

  lemma SharesAdd(a: real, b: real, t: real)
    requires t > 0.0
    ensures a / t + b / t == (a + b) / t
  {
    var x, y := a / t, b / t;
    assert x * t == a && y * t == b;
    assert (x + y) * t == a + b;
  }

  /** Summing the shares of any list of options gives that list's share of the total. */
  lemma {:induction false} PercentageSumIsShare(options: seq<BetOption>, total: int)
    requires total > 0
    ensures PercentageSum(options, total) == (TotalOptionParticipants(options) as real * 100.0) / (total as real)
    decreases |options|
  {
    if options == [] {
    } else {
      PercentageSumIsShare(options[1..], total);
      var a := options[0].participants as real * 100.0;
      var b := TotalOptionParticipants(options[1..]) as real * 100.0;
      SharesAdd(a, b, total as real);
      assert a + b == TotalOptionParticipants(options) as real * 100.0;
    }
  }

  /** The shares shown on a card with at least one participant add up to exactly 100%. */
  lemma SharesAddUpTo100(options: seq<BetOption>)
    requires TotalOptionParticipants(options) > 0
    ensures PercentageSum(options, TotalOptionParticipants(options)) == 100.0
  {
    var t := TotalOptionParticipants(options);
    PercentageSumIsShare(options, t);
    ShareBounds(t, t);
  }

  /** An option carries the "Your Pick" badge when its id is the user's choice. */
  predicate IsUserChoice(option: BetOption, userChoice: Option<string>) {
    userChoice == Some(option.id)
  }

  /** The options that carry the "Your Pick" badge. */
  function Picks(options: seq<BetOption>, userChoice: Option<string>): seq<BetOption> {
    Seqs.Filter(options, o => IsUserChoice(o, userChoice))
  }

  /** An option list that holds no option with the chosen id marks nothing as the pick. */
  lemma NoPickWithoutMatch(options: seq<BetOption>, userChoice: Option<string>)
    requires forall i :: 0 <= i < |options| ==> !IsUserChoice(options[i], userChoice)
    ensures Picks(options, userChoice) == []
  {
    Seqs.FilterEmptyIff(options, o => IsUserChoice(o, userChoice));
  }

  /** With distinct option ids, at most one option is ever marked as the user's pick. */
  lemma {:induction false} AtMostOnePick(options: seq<BetOption>, userChoice: Option<string>)
    requires forall a, b :: 0 <= a < b < |options| ==> options[a].id != options[b].id
    ensures |Picks(options, userChoice)| <= 1
    decreases |options|
  {
    if options != [] {
      var tail := options[1..];
      AtMostOnePick(tail, userChoice);
    }
  }

  /**
   * "Place Bet" is offered on an active, unexpired bet the user has not
   * picked yet (an empty pick counts as none), and only when the card was
   * given an `onParticipate` handler.
   */
  function PlaceBetShown(status: BetStatus, expired: bool, userChoice: Option<string>, hasOnParticipate: bool): (shown: bool)
    ensures shown ==> status == Active && !expired && hasOnParticipate
    ensures userChoice.Some? && userChoice.value != "" ==> !shown
    ensures status == Active && !expired && hasOnParticipate && (userChoice.None? || userChoice == Some("")) ==> shown
  {
    status == Active && !expired && (userChoice.None? || userChoice.value == "") && hasOnParticipate
  }

  /** The card callbacks a click can invoke. */
  datatype Callback = View | Participate

  /** The card's two buttons. */
  datatype CardButton = PlaceBet | ViewDetails

  /**
   * The callbacks a click invokes, given which handlers the card was passed.
   * Both buttons call `onView` when it is given; neither ever calls
   * `onParticipate`, although Place Bet is only shown when it is given.
   */
  function Click(button: CardButton, hasOnView: bool, hasOnParticipate: bool): (calls: seq<Callback>)
    ensures Participate !in calls
    ensures View in calls <==> hasOnView
    ensures |calls| <= 1
  {
    match button
    case PlaceBet => if hasOnView then [View] else []
    case ViewDetails => if hasOnView then [View] else []
  }

  /** Place Bet does exactly what View Details does, whether or not `onParticipate` is given. */
  lemma PlaceBetActsAsViewDetails(hasOnView: bool, hasOnParticipate: bool)
    ensures Click(PlaceBet, hasOnView, hasOnParticipate) == Click(ViewDetails, hasOnView, hasOnParticipate)
    ensures Click(PlaceBet, hasOnView, true) == Click(PlaceBet, hasOnView, false)
  {
  }

  /** The payout banner: a headline, whether the amount gets a `+`, and the amount. */
  datatype PayoutView = PayoutView(headline: string, plusSign: bool, amount: int, tone: PayoutStatus)

  function PayoutBanner(payout: Option<Payout>): (r: Rendered<PayoutView>)
    ensures r.Element? <==> payout.Some?
    ensures !r.Text?
    ensures r.Element? ==> (r.content.plusSign <==> payout.value.status != Lost)
    ensures r.Element? ==> r.content.amount == payout.value.amount && r.content.tone == payout.value.status
    ensures r.Element? ==> (r.content.headline == "You Won!" <==> payout.value.status == Won)
    ensures r.Element? ==> (r.content.headline == "You Lost" <==> payout.value.status == Lost)
    ensures r.Element? ==> (r.content.headline == "Payout Pending" <==> payout.value.status == Pending)
  {
    match payout
    case None => Nothing
    case Some(p) =>
      var headline := match p.status
        case Won => "You Won!"
        case Lost => "You Lost"
        case Pending => "Payout Pending";
      Element(PayoutView(headline, p.status != Lost, p.amount, p.status))
  }

  /** `{participants}{maxParticipants && `/${maxParticipants}`}` as the text it renders. */
  function PlayersLabel(participants: int, maxParticipants: Option<int>): (shown: string)
    ensures '/' in shown <==> maxParticipants.Some? && maxParticipants.value != 0
    ensures Text.IntToString(participants) <= shown
    ensures maxParticipants.None? ==> shown == Text.IntToString(participants)
    ensures maxParticipants.Some? && maxParticipants.value != 0 ==>
      shown == Text.IntToString(participants) + "/" + Text.IntToString(maxParticipants.value)
    ensures maxParticipants == Some(0) ==> shown == Text.IntToString(participants) + "0"
  {
    var head := Text.IntToString(participants);
    Text.IntToStringHasNoSlash(participants);
    var tail := match NumberGuard(maxParticipants, "/" + Text.IntToString(maxParticipants.GetOr(0)))
      case Nothing => ""
      case Text(t) => t
      case Element(s) => s;
    Text.IntToStringHasNoSlash(maxParticipants.GetOr(0));
    assert (head + tail)[..|head|] == head;
    head + tail
  }
}

=== FILE: bet_wizard.dfy ===
/**
 * The four-step bet-creation wizard: the step counter and its guards, the
 * editable list of betting options, the per-step validity rules that
 * enable Next and Create, the progress bar, and the communities offered
 * for the chosen sport. The option list's id scheme can repeat an id after
 * a removal; the model keeps that behaviour and, beside it, a corrected
 * list that hands out fresh ids.
 */
module BetWizard {
  import opened Wrappers
  import opened Domain
  import Text
  import Seqs

  /** An option as the wizard edits it; `odds` is free text. */
  datatype WizardOption = WizardOption(id: string, caption: string, odds: string)

  /** The bet's settings; `endDate` is the picked day, absent until chosen. */
  datatype Draft = Draft(
    title: string,
    description: string,
    category: string,
    community: string,
    endDate: Option<int>,
    maxParticipants: string,
    pointsRequired: string,
    isPublic: bool,
    allowComments: bool)

  const InitialDraft := Draft("", "", "", "", None, "", "100", true, true)

  /** Two blank options with ids "1" and "2". */
  const InitialOptions: seq<WizardOption> := [WizardOption("1", "", ""), WizardOption("2", "", "")]

  datatype Wizard = Wizard(step: int, draft: Draft, options: seq<WizardOption>)

  const InitialWizard := Wizard(1, InitialDraft, InitialOptions)

  const TotalSteps := 4

  /** Next advances below the last step and does nothing on it. */
  function Next(step: int): (r: int)
    ensures 1 <= step <= TotalSteps ==> 1 <= r <= TotalSteps
    ensures step < TotalSteps ==> r == step + 1
    ensures step >= TotalSteps ==> r == step
  {
    if step < TotalSteps then step + 1 else step
  }

  /** Previous goes back above the first step and does nothing on it. */
  function Previous(step: int): (r: int)
    ensures 1 <= step <= TotalSteps ==> 1 <= r <= TotalSteps
    ensures step > 1 ==> r == step - 1
    ensures step <= 1 ==> r == step
  {
    if step > 1 then step - 1 else step
  }

  /** Going forward then back from any step but the last returns to it. */
  lemma NextThenPrevious(step: int)
    requires 1 <= step < TotalSteps
    ensures Previous(Next(step)) == step
  {
  }

  /**
   * Whether the current step may be left: step 1 needs a non-blank title
   * and description and a sport; step 2 a non-blank caption on every
   * option; step 3 an end date and a points stake; step 4 is always
   * ready; any other step never is.
   */
  function IsStepValid(w: Wizard): (ok: bool)
    ensures w.step == 1 ==> (ok <==> !Text.IsBlank(w.draft.title) && !Text.IsBlank(w.draft.description) && w.draft.category != "")
    ensures w.step == 2 ==> (ok <==> forall i :: 0 <= i < |w.options| ==> !Text.IsBlank(w.options[i].caption))
    ensures w.step == 3 ==> (ok <==> w.draft.endDate.Some? && w.draft.pointsRequired != "")
    ensures w.step == 4 ==> ok
    ensures !(1 <= w.step <= 4) ==> !ok
  {
    if w.step == 1 then Text.Trim(w.draft.title) != "" && Text.Trim(w.draft.description) != "" && w.draft.category != ""
    else if w.step == 2 then AllCaptionedIffNoneBlank(w.options); AllCaptioned(w.options)
    else if w.step == 3 then w.draft.endDate.Some? && w.draft.pointsRequired != ""
    else w.step == 4
  }

  /** `options.every(o => o.caption.trim())`. */
  function AllCaptioned(options: seq<WizardOption>): (ok: bool)
    ensures ok <==> forall o :: o in options ==> Captioned(o)
  {
    if options == [] then true
    else
      assert options == [options[0]] + options[1..];
      Captioned(options[0]) && AllCaptioned(options[1..])
  }

  /** One option passes `every` when its trimmed caption is non-empty. */
  predicate Captioned(o: WizardOption) {
    Text.Trim(o.caption) != ""
  }

  /** The options pass exactly when no caption is blank. */
  lemma AllCaptionedIffNoneBlank(options: seq<WizardOption>)
    ensures AllCaptioned(options) <==> forall i :: 0 <= i < |options| ==> !Text.IsBlank(options[i].caption)
  {
    forall i | 0 <= i < |options|
      ensures options[i] in options
      ensures Captioned(options[i]) <==> !Text.IsBlank(options[i].caption)
    {
      var t := Text.Trim(options[i].caption);
    }
  }

  /** The Next button: disabled while the step is invalid, otherwise it advances. */
  function PressNext(w: Wizard): (r: Wizard)
    requires w.step < TotalSteps
    ensures r.draft == w.draft && r.options == w.options
    ensures IsStepValid(w) ==> r.step == w.step + 1
    ensures !IsStepValid(w) ==> r.step == w.step
  {
    if IsStepValid(w) then w.(step := Next(w.step)) else w
  }

  /** The Previous button: disabled on step 1. */
  function PressPrevious(w: Wizard): (r: Wizard)
    ensures r.draft == w.draft && r.options == w.options
    ensures r.step == Previous(w.step)
  {
    if w.step == 1 then w else w.(step := Previous(w.step))
  }

  /** The step stays in 1 to 4 whatever is pressed. */
  lemma StepStaysInRange(w: Wizard)
    requires 1 <= w.step <= TotalSteps
    ensures w.step < TotalSteps ==> 1 <= PressNext(w).step <= TotalSteps
    ensures 1 <= PressPrevious(w).step <= TotalSteps
  {
  }

  /** Progress bar: `currentStep / 4 * 100`. */
  function Progress(step: int): (p: real)
    ensures 1 <= step <= TotalSteps ==> p == 25.0 * step as real
    ensures p == 100.0 <==> step == TotalSteps
    ensures step < TotalSteps ==> p < 100.0
  {
    (step as real / TotalSteps as real) * 100.0
  }

  /** `addOption`: one blank option appended, with id `length + 1`; the others are unchanged. */
  function AddOption(options: seq<WizardOption>): (r: seq<WizardOption>)
    ensures |r| == |options| + 1
    ensures r[..|options|] == options
    ensures r[|options|].caption == "" && r[|options|].odds == ""
    ensures r[|options|].id == Text.NatToString(|options| + 1)
  {
    options + [WizardOption(Text.NatToString(|options| + 1), "", "")]
  }

  predicate HasId(o: WizardOption, id: string) {
    o.id == id
  }

  /** `removeOption`: with more than two options, every option with that id goes; otherwise nothing changes. */
  function RemoveOption(options: seq<WizardOption>, id: string): (r: seq<WizardOption>)
    ensures |options| <= 2 ==> r == options
    ensures |options| > 2 ==> forall o :: o in r <==> o in options && o.id != id
    ensures |options| > 2 ==> forall o :: multiset(r)[o] == (if o.id == id then 0 else multiset(options)[o])
    ensures Seqs.Subseq(r, options)
  {
    Seqs.SubseqRefl(options);
    Seqs.FilterMultiplicity(options, o => !HasId(o, id));
    if |options| > 2 then Seqs.Filter(options, o => !HasId(o, id)) else options
  }

  datatype OptionField = Caption | Odds

  /** `updateOption`: the named field of every option with that id; length, order and the rest unchanged. */
  function UpdateOption(options: seq<WizardOption>, id: string, field: OptionField, value: string): (r: seq<WizardOption>)
    ensures |r| == |options|
    ensures forall i :: 0 <= i < |r| ==> r[i].id == options[i].id
    ensures forall i :: 0 <= i < |r| && options[i].id != id ==> r[i] == options[i]
    ensures forall i :: 0 <= i < |r| && options[i].id == id ==>
      (if field == Caption then r[i] == options[i].(caption := value) else r[i] == options[i].(odds := value))
  {
    Seqs.Map(options, (o: WizardOption) =>
      if o.id != id then o
      else if field == Caption then o.(caption := value)
      else o.(odds := value))
  }

  /** The communities offered for the chosen sport: all of them with no sport, else that sport's and the general ones. */
  function AvailableCommunities(cs: seq<Community>, category: string): (r: seq<Community>)
    ensures category == "" ==> r == cs
    ensures forall c :: c in r <==> c in cs && (category == "" || c.category == category || c.category == "general")
    ensures Seqs.Subseq(r, cs)
  {
    var p := (c: Community) => category == "" || c.category == category || c.category == "general";
    Seqs.FilterKeepsAll(if category == "" then cs else [], p);
    Seqs.Filter(cs, p)
  }

  /** No two options share an id. */
  predicate DistinctIds(options: seq<WizardOption>) {
    forall i, j :: 0 <= i < j < |options| ==> options[i].id != options[j].id
  }

  /** With distinct ids, dropping one id drops at most one option. */
  lemma {:induction false} RemoveDropsAtMostOne(options: seq<WizardOption>, id: string)
    requires DistinctIds(options)
    ensures |Seqs.Filter(options, o => !HasId(o, id))| >= |options| - 1
    ensures (forall i :: 0 <= i < |options| ==> options[i].id != id) ==> |Seqs.Filter(options, o => !HasId(o, id))| == |options|
    decreases |options|
  {
    if options != [] {
      var tail := options[1..];
      assert DistinctIds(tail) by {
        forall i, j | 0 <= i < j < |tail| ensures tail[i].id != tail[j].id {
          assert tail[i] == options[i + 1] && tail[j] == options[j + 1];
        }
      }
      RemoveDropsAtMostOne(tail, id);
      if options[0].id == id {
        assert forall i :: 0 <= i < |tail| ==> tail[i].id != id by {
          forall i | 0 <= i < |tail| ensures tail[i].id != id {
            assert tail[i] == options[i + 1];
          }
        }
      } else {
        assert forall i :: 0 <= i < |tail| ==> tail[i] == options[i + 1];
      }
    }
  }

  /** While ids are distinct, removal never leaves fewer than two options. */
  lemma DistinctIdsKeepTwo(options: seq<WizardOption>, id: string)
    requires DistinctIds(options) && |options| >= 2
    ensures |RemoveOption(options, id)| >= 2
  {
    if |options| > 2 {
      RemoveDropsAtMostOne(options, id);
    }
  }

  /** An edit of the option list, as the Add Option and remove buttons make it. */
  datatype OptionEdit = Add | Remove(id: string)

  /** The option list after a sequence of edits, as the page performs them. */
  function RunAsWritten(options: seq<WizardOption>, edits: seq<OptionEdit>): (r: seq<WizardOption>)
    ensures |r| <= |options| + |edits|
    decreases |edits|
  {
    if edits == [] then options
    else if edits[0].Add? then RunAsWritten(AddOption(options), edits[1..])
    else
      var next := RemoveOption(options, edits[0].id);
      Seqs.SubseqLength(next, options);
      RunAsWritten(next, edits[1..])
  }

  /**
   * Add, remove "2", add, remove "3": the second add repeats the id "3",
   * so the last removal takes two options and leaves one, below the
   * two-option floor. Before that removal, editing the caption of the
   * option with id "3" edits both of them.
   */
  lemma DuplicateIdBreaksFloor()
    ensures var dup := RunAsWritten(InitialOptions, [Add, Remove("2"), Add]);
      |dup| == 3 && dup[1].id == dup[2].id == "3"
      && UpdateOption(dup, "3", Caption, "X")[1].caption == "X"
      && UpdateOption(dup, "3", Caption, "X")[2].caption == "X"
    ensures |RunAsWritten(InitialOptions, [Add, Remove("2"), Add, Remove("3")])| == 1
  {
    var o1, o3 := WizardOption("1", "", ""), WizardOption("3", "", "");
    var s1 := AddOption(InitialOptions);
    AddThirdOption();
    RemoveSecondOption();
    var s2 := RemoveOption(s1, "2");
    assert RunAsWritten(s1, [Remove("2"), Add]) == RunAsWritten(s2, [Add]);
    assert AddOption(s2) == [o1, o3, o3] by {
      assert Text.NatToString(3) == "3";
    }
    RemoveDuplicatedOption();
    assert RunAsWritten(s1, [Remove("2"), Add, Remove("3")]) == RunAsWritten(s2, [Add, Remove("3")]);
    assert RunAsWritten(s2, [Add, Remove("3")]) == RunAsWritten([o1, o3, o3], [Remove("3")]);
  }

  /** The first Add Option appends the third option, with id "3". */
  lemma AddThirdOption()
    ensures AddOption(InitialOptions) == [WizardOption("1", "", ""), WizardOption("2", "", ""), WizardOption("3", "", "")]
  {
    assert Text.NatToString(3) == "3";
  }

  /** Removing "2" from the three fresh options leaves the first and the third. */
  lemma RemoveSecondOption()
    ensures var o1, o2, o3 := WizardOption("1", "", ""), WizardOption("2", "", ""), WizardOption("3", "", "");
      RemoveOption([o1, o2, o3], "2") == [o1, o3]
  {
    var o1, o2, o3 := WizardOption("1", "", ""), WizardOption("2", "", ""), WizardOption("3", "", "");
    var s := [o1, o2, o3];
    assert s[1..][1..][1..] == [];
    assert Seqs.Filter(s[1..][1..], o => !HasId(o, "2")) == [o3];
    assert Seqs.Filter(s[1..], o => !HasId(o, "2")) == [o3];
  }

  /** Removing "3" from a list holding it twice leaves only the first option. */
  lemma RemoveDuplicatedOption()
    ensures var o1, o3 := WizardOption("1", "", ""), WizardOption("3", "", "");
      RemoveOption([o1, o3, o3], "3") == [o1]
  {
    var o1, o3 := WizardOption("1", "", ""), WizardOption("3", "", "");
    var s := [o1, o3, o3];
    assert s[1..][1..][1..] == [];
    assert Seqs.Filter(s[1..][1..], o => !HasId(o, "3")) == [];
    assert Seqs.Filter(s[1..], o => !HasId(o, "3")) == [];
  }

  /**
   * The corrected option list: ids come from a counter that only grows,
   * so no id is ever handed out twice.
   */
  datatype OptionList = OptionList(items: seq<WizardOption>, nextId: nat)

  /** Ids are distinct and none of them is a number the counter has yet to hand out. */
  ghost predicate Fresh(l: OptionList) {
    DistinctIds(l.items)
    && forall i, m :: 0 <= i < |l.items| && m >= l.nextId ==> l.items[i].id != Text.NatToString(m)
  }

  const InitialList := OptionList(InitialOptions, 3)

  lemma InitialListFresh()
    ensures Fresh(InitialList)
  {
    forall i, m | 0 <= i < 2 && m >= 3
      ensures InitialOptions[i].id != Text.NatToString(m)
    {
      assert InitialOptions[i].id == Text.NatToString(i + 1);
      Text.NatToStringInjective(i + 1, m);
    }
  }

  /** Add with a fresh id from the counter. */
  function AddFresh(l: OptionList): (r: OptionList)
    ensures |r.items| == |l.items| + 1 && r.items[..|l.items|] == l.items
    ensures r.items[|l.items|] == WizardOption(Text.NatToString(l.nextId), "", "")
    ensures Fresh(l) ==> Fresh(r)
  {
    var r := OptionList(l.items + [WizardOption(Text.NatToString(l.nextId), "", "")], l.nextId + 1);
    AddFreshKeepsFresh(l, r);
    r
  }

  lemma AddFreshKeepsFresh(l: OptionList, r: OptionList)
    requires r == OptionList(l.items + [WizardOption(Text.NatToString(l.nextId), "", "")], l.nextId + 1)
    ensures Fresh(l) ==> Fresh(r)
  {
    if Fresh(l) {
      forall m | m >= r.nextId ensures Text.NatToString(l.nextId) != Text.NatToString(m) {
        Text.NatToStringInjective(l.nextId, m);
      }
      forall i, j | 0 <= i < j < |r.items| ensures r.items[i].id != r.items[j].id {
        if j == |l.items| {
          assert r.items[i] == l.items[i];
        } else {
          assert r.items[i] == l.items[i] && r.items[j] == l.items[j];
        }
      }
    }
  }

  /** Remove, with the same two-option guard. */
  function RemoveFresh(l: OptionList, id: string): (r: OptionList)
    ensures r.items == RemoveOption(l.items, id) && r.nextId == l.nextId
    ensures Fresh(l) ==> Fresh(r)
    ensures Fresh(l) && |l.items| >= 2 ==> |r.items| >= 2
  {
    var r := OptionList(RemoveOption(l.items, id), l.nextId);
    RemoveFreshKeepsFresh(l, id);
    r
  }

  lemma RemoveFreshKeepsFresh(l: OptionList, id: string)
    ensures Fresh(l) ==> Fresh(OptionList(RemoveOption(l.items, id), l.nextId))
    ensures Fresh(l) && |l.items| >= 2 ==> |RemoveOption(l.items, id)| >= 2
  {
    if Fresh(l) {
      var r := RemoveOption(l.items, id);
      SubseqKeepsDistinct(r, l.items);
      if |l.items| >= 2 {
        DistinctIdsKeepTwo(l.items, id);
      }
    }
  }

  /** Removing options keeps distinct ids distinct and keeps every id one the list already had. */
  lemma {:induction false} SubseqKeepsDistinct(a: seq<WizardOption>, b: seq<WizardOption>)
    requires Seqs.Subseq(a, b) && DistinctIds(b)
    ensures DistinctIds(a)
    ensures forall x :: x in a ==> x in b
    decreases |b|
  {
    if a != [] {
      var tb := b[1..];
      assert DistinctIds(tb) by {
        forall i, j | 0 <= i < j < |tb| ensures tb[i].id != tb[j].id {
          assert tb[i] == b[i + 1] && tb[j] == b[j + 1];
        }
      }
      if a[0] == b[0] && Seqs.Subseq(a[1..], tb) {
        SubseqKeepsDistinct(a[1..], tb);
        forall j | 0 < j < |a| ensures a[0].id != a[j].id {
          assert a[j] == a[1..][j - 1];
          assert a[j] in a[1..];
          assert a[j] in tb;
          var k :| 0 <= k < |tb| && tb[k] == a[j];
          assert b[k + 1] == a[j];
        }
        forall x | x in a ensures x in b {
          if x != a[0] {
            assert x in a[1..];
          }
        }
      } else {
        SubseqKeepsDistinct(a, tb);
      }
    }
  }

  /** The corrected list after a sequence of edits. */
  function RunFresh(l: OptionList, edits: seq<OptionEdit>): (r: OptionList)
    ensures Fresh(l) ==> Fresh(r)
    ensures Fresh(l) && |l.items| >= 2 ==> |r.items| >= 2
    decreases |edits|
  {
    if edits == [] then l
    else
      var next := match edits[0]
        case Add => AddFresh(l)
        case Remove(id) => RemoveFresh(l, id);
      RunFresh(next, edits[1..])
  }

  /** With fresh ids, no sequence of edits takes the list below two options. */
  lemma FreshNeverBelowTwo(edits: seq<OptionEdit>)
    ensures |RunFresh(InitialList, edits).items| >= 2
  {
    InitialListFresh();
  }
}

=== FILE: communities_page.dfy ===
/**
 * The communities browser: a search box, a category tab bar with counts,
 * a row of filter buttons, the "My Communities" and "Featured" strips,
 * and the Clear Filters reset. The list shown is a filter of the
 * community list the page is given.
 */
module CommunitiesPage {
  import opened Domain
  import Text
  import Seqs

  /** What the visitor has selected: the search text, the category tab and the filter button. */
  datatype PageState = PageState(searchQuery: string, category: string, filter: string)

  const InitialState := PageState("", "all", "all")

  /** Case-insensitive substring search in the name or the description. */
  predicate MatchesSearch(c: Community, query: string) {
    Text.Contains(Text.Lower(c.name), Text.Lower(query))
    || Text.Contains(Text.Lower(c.description), Text.Lower(query))
  }

  /** The "all" tab matches every community; any other tab compares categories exactly. */
  predicate MatchesCategory(c: Community, category: string) {
    category == "all" || c.category == category
  }

  /** The filter buttons; a value that is none of the five matches nothing. */
  predicate MatchesFilter(c: Community, filter: string) {
    || filter == "all"
    || (filter == "joined" && c.isJoined)
    || (filter == "trending" && c.winRate > 60)
    || (filter == "new" && c.memberCount < 2000)
    || (filter == "most-active" && c.activeMembers > 50)
  }

  predicate Shown(s: PageState, c: Community) {
    MatchesSearch(c, s.searchQuery) && MatchesCategory(c, s.category) && MatchesFilter(c, s.filter)
  }

  /** The communities listed under the tabs: those matching all three selections, in their original order. */
  function FilteredCommunities(cs: seq<Community>, s: PageState): (r: seq<Community>)
    ensures forall c :: c in r <==>
      (c in cs && MatchesSearch(c, s.searchQuery) && MatchesCategory(c, s.category) && MatchesFilter(c, s.filter))
    ensures Seqs.Subseq(r, cs)
  {
    Seqs.Filter(cs, c => Shown(s, c))
  }

  /** An empty search matches every community. */
  lemma EmptySearchMatchesAll(c: Community)
    ensures MatchesSearch(c, "")
  {
    assert Text.Lower("") == "";
    Text.ContainsEmpty(Text.Lower(c.name));
  }

  /** The case of the query does not matter: searching for its lower-case form finds the same communities. */
  lemma SearchIgnoresCase(c: Community, query: string)
    ensures MatchesSearch(c, Text.Lower(query)) <==> MatchesSearch(c, query)
  {
    Text.LowerIdempotent(query);
  }

  /** Picking a category tab only narrows the list the "all" tab shows. */
  lemma CategoryNarrows(cs: seq<Community>, s: PageState)
    ensures Seqs.Subseq(FilteredCommunities(cs, s), FilteredCommunities(cs, s.(category := "all")))
  {
    var all := s.(category := "all");
    Seqs.FilterMonotone(cs, c => Shown(s, c), c => Shown(all, c));
  }

  /** A filter value that is none of the five buttons leaves the list empty. */
  lemma UnknownFilterShowsNothing(cs: seq<Community>, s: PageState)
    requires s.filter !in ["all", "joined", "trending", "new", "most-active"]
    ensures FilteredCommunities(cs, s) == []
  {
    Seqs.FilterEmptyIff(cs, c => Shown(s, c));
  }

  /** `.filter(c => c.category === key).length`. */
  function CategoryCount(cs: seq<Community>, key: string): (n: nat)
    ensures n <= |cs|
  {
    |Seqs.Filter(cs, (c: Community) => c.category == key)|
  }

  /** A tab counts every community exactly when all of them are in its category. */
  lemma CategoryCountFull(cs: seq<Community>, key: string)
    ensures CategoryCount(cs, key) == |cs| <==> forall i :: 0 <= i < |cs| ==> cs[i].category == key
  {
    FilterLengthFull(cs, (c: Community) => c.category == key);
  }

  /** A filter keeps its whole input exactly when every element passes. */
  lemma {:induction false} FilterLengthFull(cs: seq<Community>, p: Community -> bool)
    ensures |Seqs.Filter(cs, p)| == |cs| <==> forall i :: 0 <= i < |cs| ==> p(cs[i])
    decreases |cs|
  {
    if cs != [] {
      FilterLengthFull(cs[1..], p);
      assert forall i :: 1 <= i < |cs| ==> cs[i] == cs[1..][i - 1];
      if !p(cs[0]) {
        assert |Seqs.Filter(cs, p)| <= |cs[1..]|;
      }
    }
  }

  /** A category tab: its key, its caption and the number of communities it holds. */
  datatype Tab = Tab(id: string, caption: string, count: nat)

  /** "All Sports" counts everything; each sport tab counts its own category. */
  function CategoryTabs(cs: seq<Community>): (tabs: seq<Tab>)
    ensures |tabs| == 6
    ensures tabs[0].id == "all" && tabs[0].count == |cs|
    ensures forall i :: 1 <= i < 6 ==> tabs[i].id == SportKeys[i - 1] && tabs[i].count == CategoryCount(cs, SportKeys[i - 1])
  {
    [Tab("all", "All Sports", |cs|),
     Tab("nba", "NBA", CategoryCount(cs, "nba")),
     Tab("nfl", "NFL", CategoryCount(cs, "nfl")),
     Tab("mlb", "MLB", CategoryCount(cs, "mlb")),
     Tab("nhl", "NHL", CategoryCount(cs, "nhl")),
     Tab("general", "General", CategoryCount(cs, "general"))]
  }

  /** When every community carries one of the five sport keys, the sport tabs' counts add up to the "All Sports" count. */
  lemma {:induction false} SportCountsCoverAll(cs: seq<Community>)
    requires forall i :: 0 <= i < |cs| ==> cs[i].category in SportKeys
    ensures CategoryCount(cs, "nba") + CategoryCount(cs, "nfl") + CategoryCount(cs, "mlb")
      + CategoryCount(cs, "nhl") + CategoryCount(cs, "general") == |cs|
    decreases |cs|
  {
    if cs != [] {
      assert forall i :: 1 <= i < |cs| ==> cs[1..][i - 1] == cs[i];
      SportCountsCoverAll(cs[1..]);
      var c := cs[0].category;
      CategoryCountStep(cs, "nba");
      CategoryCountStep(cs, "nfl");
      CategoryCountStep(cs, "mlb");
      CategoryCountStep(cs, "nhl");
      CategoryCountStep(cs, "general");
      OneSportKeyMatches(c);
    }
  }

  /** 1 when the category is the key, else 0. */
  function Hit(category: string, key: string): nat {
    if category == key then 1 else 0
  }

  /** Counting peels off one community at a time. */
  lemma CategoryCountStep(cs: seq<Community>, key: string)
    requires cs != []
    ensures CategoryCount(cs, key) == Hit(cs[0].category, key) + CategoryCount(cs[1..], key)
  {
  }

  /** A sport key matches exactly one of the five sport tabs. */
  lemma OneSportKeyMatches(category: string)
    requires category in SportKeys
    ensures Hit(category, "nba") + Hit(category, "nfl") + Hit(category, "mlb") + Hit(category, "nhl") + Hit(category, "general") == 1
  {
  }

  /** The tab bar's counts, stated on the tabs themselves. */
  lemma TabCountsAddUp(cs: seq<Community>)
    requires forall i :: 0 <= i < |cs| ==> cs[i].category in SportKeys
    ensures var t := CategoryTabs(cs); t[1].count + t[2].count + t[3].count + t[4].count + t[5].count == t[0].count
  {
    SportCountsCoverAll(cs);
  }

  predicate Joined(c: Community) {
    c.isJoined
  }

  /** The featured strip's rule: a win rate above 60, the same bound as the "trending" filter. */
  predicate Hot(c: Community) {
    c.winRate > 60
  }

  /** The "My Communities" strip: the first three joined communities; the strip is hidden when there are none. */
  function MyCommunities(cs: seq<Community>): (r: seq<Community>)
    ensures |r| <= 3
    ensures forall i :: 0 <= i < |r| ==> r[i].isJoined && r[i] in cs
    ensures |r| == Seqs.Min(3, |Seqs.Filter(cs, Joined)|)
    ensures r <= Seqs.Filter(cs, Joined)
    ensures r == [] <==> forall i :: 0 <= i < |cs| ==> !cs[i].isJoined
  {
    Seqs.FilterEmptyIff(cs, Joined);
    Seqs.Take(Seqs.Filter(cs, Joined), 3)
  }

  /** The "Featured" strip: the first three communities with a win rate above 60. */
  function Featured(cs: seq<Community>): (r: seq<Community>)
    ensures |r| <= 3
    ensures forall i :: 0 <= i < |r| ==> r[i].winRate > 60 && r[i] in cs
    ensures |r| == Seqs.Min(3, |Seqs.Filter(cs, Hot)|)
    ensures r <= Seqs.Filter(cs, Hot)
    ensures r == [] <==> forall i :: 0 <= i < |cs| ==> cs[i].winRate <= 60
  {
    Seqs.FilterEmptyIff(cs, Hot);
    Seqs.Take(Seqs.Filter(cs, Hot), 3)
  }

  /** Clear Filters: empty search, "all" filter, "all" tab. */
  function ClearFilters(s: PageState): (r: PageState)
    ensures r.searchQuery == "" && r.category == "all" && r.filter == "all"
  {
    InitialState
  }

  /** After Clear Filters every community is listed again, in order. */
  lemma ClearFiltersShowsAll(cs: seq<Community>, s: PageState)
    ensures FilteredCommunities(cs, ClearFilters(s)) == cs
  {
    var t := ClearFilters(s);
    forall i | 0 <= i < |cs| ensures Shown(t, cs[i]) {
      EmptySearchMatchesAll(cs[i]);
    }
    Seqs.FilterKeepsAll(cs, c => Shown(t, c));
  }
}

=== FILE: community_card.dfy ===
/**
 * The community card: the joined badge, the top-member avatar stack, the
 * win-rate block with its colour band, and the recent-activity line.
 */
module CommunityCard {
  import opened Wrappers
  import opened Domain
  import opened Jsx
  import Seqs

  /** The card's properties; the optional ones are `None` when not passed. */
  datatype Props = Props(
    id: string,
    name: string,
    description: string,
    memberCount: int,
    activeMembers: int,
    totalBets: int,
    winRate: Option<int>,
    category: string,
    isJoined: Option<bool>,
    topMembers: Option<seq<Member>>,
    recentActivity: Option<string>)

  /** The pages spread a community record into the card: every property is passed. */
  function FromCommunity(c: Community): (p: Props)
    ensures p.isJoined == Some(c.isJoined) && p.topMembers == Some(c.topMembers)
    ensures p.winRate == Some(c.winRate) && p.recentActivity == Some(c.recentActivity)
  {
    Props(c.id, c.name, c.description, c.memberCount, c.activeMembers, c.totalBets,
      Some(c.winRate), c.category, Some(c.isJoined), Some(c.topMembers), Some(c.recentActivity))
  }

  /** The avatars shown and, when some are cut off, how many. */
  datatype AvatarStack = AvatarStack(shown: seq<Member>, hidden: Option<int>)

  /** At most four avatars, then `+n`; the section is hidden when there are no top members. */
  function TopMembersDisplay(members: seq<Member>): (r: Rendered<AvatarStack>)
    ensures r.Element? <==> |members| > 0
    ensures !r.Text?
    ensures r.Element? ==> r.content.shown <= members && |r.content.shown| == Seqs.Min(4, |members|)
    ensures r.Element? ==> (r.content.hidden.Some? <==> |members| > 4)
    ensures r.Element? ==> |r.content.shown| + r.content.hidden.GetOr(0) == |members|
  {
    BoolGuard(|members| > 0,
      AvatarStack(Seqs.Take(members, 4), if |members| > 4 then Some(|members| - 4) else None))
  }

  /** The `%` dot and the percentage text, each with its colour band. */
  datatype WinRateBlock = WinRateBlock(dot: Tier, text: Tier)

  /** `{winRate && <Block/>}`: omitted when unknown; a rate of 0 leaks the text "0". */
  function WinRateDisplay(winRate: Option<int>): (r: Rendered<WinRateBlock>)
    ensures r.Element? <==> winRate.Some? && winRate.value != 0
    ensures r.Text? <==> winRate == Some(0)
    ensures r.Element? ==> r.content.dot == r.content.text == WinRateTier(winRate.value)
  {
    var t := WinRateTier(winRate.GetOr(0));
    NumberGuard(winRate, WinRateBlock(t, t))
  }

  /** The card as rendered, after defaults (`isJoined = false`, `topMembers = []`). */
  datatype CardView = CardView(
    joinedBadge: bool,
    members: Rendered<AvatarStack>,
    winRate: Rendered<WinRateBlock>,
    activity: Rendered<string>)

  function Render(p: Props): (v: CardView)
    ensures v.joinedBadge <==> p.isJoined == Some(true)
    ensures p.topMembers.None? ==> v.members == Nothing
    ensures p.topMembers.Some? ==> v.members == TopMembersDisplay(p.topMembers.value)
    ensures v.activity.Element? <==> p.recentActivity.Some? && p.recentActivity.value != ""
    ensures v.activity.Element? ==> v.activity.content == p.recentActivity.value
    ensures v.winRate == WinRateDisplay(p.winRate)
  {
    CardView(
      p.isJoined.GetOr(false),
      TopMembersDisplay(p.topMembers.GetOr([])),
      WinRateDisplay(p.winRate),
      StringGuard(p.recentActivity, p.recentActivity.GetOr("")))
  }
}

=== FILE: create_bet_modal.dfy ===
/**
 * The quick "place a bet" dialog: a seven-field draft, the submit button's
 * enabling rule, the live preview, and what submitting or cancelling does
 * to the dialog and the draft.
 */
module CreateBetModal {
  import opened Wrappers
  import opened Jsx

  /** The draft; every field is the raw string the input holds. */
  datatype Form = Form(
    title: string,
    description: string,
    sport: string,
    betType: string,
    amount: string,
    expiry: string,
    community: string)

  const EmptyForm := Form("", "", "", "", "", "", "")

  /** The dialog: whether it is open, and the draft it holds. */
  datatype Modal = Modal(open: bool, form: Form)

  const Initial := Modal(false, EmptyForm)

  /** An entry of one of the dialog's pick lists. */
  datatype Choice = Choice(value: string, caption: string)

  const SportChoices: seq<Choice> := [
    Choice("nba", "\U{1F3C0} NBA"),
    Choice("nfl", "\U{1F3C8} NFL"),
    Choice("mlb", "\U{26BE} MLB"),
    Choice("nhl", "\U{1F3D2} NHL"),
    Choice("soccer", "\U{26BD} Soccer")
  ]

  const BetTypeChoices: seq<Choice> := [
    Choice("moneyline", "Moneyline"),
    Choice("spread", "Point Spread"),
    Choice("over-under", "Over/Under"),
    Choice("prop", "Prop Bet"),
    Choice("parlay", "Parlay")
  ]

  const CommunityChoices: seq<Choice> := [
    Choice("nba-fanatics", "NBA Fanatics"),
    Choice("nfl-legends", "NFL Legends"),
    Choice("mlb-analytics", "MLB Analytics"),
    Choice("college-hoops", "College Hoops")
  ]

  /** `choices.find(c => c.value === value)?.label`: the first entry with that value, if any. */
  function CaptionOf(choices: seq<Choice>, value: string): (r: Option<string>)
    ensures r.None? <==> forall i :: 0 <= i < |choices| ==> choices[i].value != value
    ensures r.Some? ==> exists i :: 0 <= i < |choices| && choices[i] == Choice(value, r.value)
  {
    if choices == [] then None
    else if choices[0].value == value then Some(choices[0].caption)
    else CaptionOf(choices[1..], value)
  }

  /** Typing into one field replaces that field and leaves the other six alone. */
  datatype Field = Title | Description | Sport | BetType | Amount | Expiry | Community

  function Get(f: Form, field: Field): string {
    match field
    case Title => f.title
    case Description => f.description
    case Sport => f.sport
    case BetType => f.betType
    case Amount => f.amount
    case Expiry => f.expiry
    case Community => f.community
  }

  function Edit(m: Modal, field: Field, value: string): (r: Modal)
    ensures r.open == m.open
    ensures Get(r.form, field) == value
    ensures forall g :: g != field ==> Get(r.form, g) == Get(m.form, g)
  {
    var f := m.form;
    var f' := match field
      case Title => f.(title := value)
      case Description => f.(description := value)
      case Sport => f.(sport := value)
      case BetType => f.(betType := value)
      case Amount => f.(amount := value)
      case Expiry => f.(expiry := value)
      case Community => f.(community := value);
    m.(form := f')
  }

  /** The trigger, the close button and the overlay all go through `onOpenChange`, which sets `open` and keeps the draft. */
  function SetOpen(m: Modal, open: bool): (r: Modal)
    ensures r.open == open && r.form == m.form
  {
    m.(open := open)
  }

  /** The Cancel button: closes the dialog and keeps the draft for next time. */
  function Cancel(m: Modal): (r: Modal)
    ensures !r.open && r.form == m.form
  {
    SetOpen(m, false)
  }

  /** The submit button is enabled once title, sport, bet type and amount are all non-empty. */
  function SubmitEnabled(f: Form): (enabled: bool)
    ensures enabled <==> forall g :: g in ButtonFields ==> Get(f, g) != ""
    ensures Get(f, Title) == "" ==> !enabled
  {
    assert Title in ButtonFields && Sport in ButtonFields && BetType in ButtonFields && Amount in ButtonFields;
    f.title != "" && f.sport != "" && f.betType != "" && f.amount != ""
  }

  /** The fields the submit button waits for; description, expiry and community are optional to it. */
  const ButtonFields: seq<Field> := [Title, Sport, BetType, Amount]

  /** The browser's own check of the `required` inputs: title, amount and expiry. */
  predicate RequiredFilled(f: Form) {
    f.title != "" && f.amount != "" && f.expiry != ""
  }

  /** `handleSubmit`: closes the dialog and clears every field. */
  function HandleSubmit(m: Modal): (r: Modal)
    ensures !r.open
    ensures forall g :: Get(r.form, g) == ""
  {
    Modal(false, EmptyForm)
  }

  /**
   * Pressing the submit button: nothing happens while it is disabled or
   * while a required input is empty; otherwise the form is submitted.
   */
  function PressSubmit(m: Modal): (r: Modal)
    ensures SubmitEnabled(m.form) && RequiredFilled(m.form) ==> r == HandleSubmit(m)
    ensures !(SubmitEnabled(m.form) && RequiredFilled(m.form)) ==> r == m
  {
    if SubmitEnabled(m.form) && RequiredFilled(m.form) then HandleSubmit(m) else m
  }

  /** A submitted draft is gone: the dialog is closed and its submit button is disabled again. */
  lemma SubmitResets(m: Modal)
    requires SubmitEnabled(m.form) && RequiredFilled(m.form)
    ensures !PressSubmit(m).open && !SubmitEnabled(PressSubmit(m).form)
    ensures PressSubmit(m) == Initial
  {
  }

  /** Cancelling and reopening brings back the same draft. */
  lemma CancelKeepsDraft(m: Modal)
    ensures SetOpen(Cancel(m), true) == m.(open := true)
  {
  }

  /** The expiry is required by the browser but not by the button: an enabled button can still be refused. */
  lemma EnabledButNotSubmitted()
    ensures var f := Form("T", "", "nba", "prop", "100", "", "");
      SubmitEnabled(f) && PressSubmit(Modal(true, f)) == Modal(true, f)
  {
  }

  /** The preview's badges; a lookup that finds nothing renders an empty badge. */
  datatype Preview = Preview(title: string, sport: Rendered<Option<string>>, betType: Rendered<Option<string>>, amount: Rendered<string>)

  /** The preview appears once the title is non-empty; each badge appears once its field is. */
  function PreviewDisplay(f: Form): (r: Rendered<Preview>)
    ensures r.Element? <==> f.title != ""
    ensures !r.Text?
    ensures r.Element? ==> r.content.title == f.title
    ensures r.Element? ==> (r.content.sport.Element? <==> f.sport != "")
    ensures r.Element? && r.content.sport.Element? ==> r.content.sport.content == CaptionOf(SportChoices, f.sport)
    ensures r.Element? ==> (r.content.betType.Element? <==> f.betType != "")
    ensures r.Element? && r.content.betType.Element? ==> r.content.betType.content == CaptionOf(BetTypeChoices, f.betType)
    ensures r.Element? ==> (r.content.amount.Element? <==> f.amount != "")
    ensures r.Element? && r.content.amount.Element? ==> r.content.amount.content == f.amount + " points"
  {
    StringGuard(Some(f.title), Preview(
      f.title,
      StringGuard(Some(f.sport), CaptionOf(SportChoices, f.sport)),
      StringGuard(Some(f.betType), CaptionOf(BetTypeChoices, f.betType)),
      StringGuard(Some(f.amount), f.amount + " points")))
  }

  /** A sport picked from the list shows its caption, emoji included. */
  lemma PickedSportShowsCaption(i: nat)
    requires i < |SportChoices|
    ensures CaptionOf(SportChoices, SportChoices[i].value) == Some(SportChoices[i].caption)
  {
    assert forall j :: 0 <= j < i ==> SportChoices[j].value != SportChoices[i].value;
    CaptionOfAt(SportChoices, i);
  }

  /** An entry whose value no earlier entry carries is the one `find` returns. */
  lemma {:induction false} CaptionOfAt(choices: seq<Choice>, i: nat)
    requires i < |choices|
    requires forall j :: 0 <= j < i ==> choices[j].value != choices[i].value
    ensures CaptionOf(choices, choices[i].value) == Some(choices[i].caption)
    decreases i
  {
    if i > 0 {
      assert forall j :: 0 <= j < i - 1 ==> choices[1..][j] == choices[j + 1];
      CaptionOfAt(choices[1..], i - 1);
    }
  }
}

=== FILE: domain.dfy ===
/**
 * The records the front-end passes around: the signed-in user, communities,
 * bets with their options and payouts, and leaderboard entries. Numbers are
 * JavaScript numbers that only ever hold integers here, so they are `int`;
 * optional properties (`x?: T`) are `Option<T>`.
 */
module Domain {
  import opened Wrappers

  datatype BadgeColor = Gold | Silver | Bronze | Blue | Green | Red

  datatype Badge = Badge(id: string, caption: string, color: BadgeColor)

  /** One time window of a user's betting record (`thisWeek`, `thisMonth`). */
  datatype WindowStats = WindowStats(betsPlaced: int, betsWon: int, pointsEarned: int, winRate: int)

  /** The all-time window, which also carries streaks. */
  datatype AllTimeStats = AllTimeStats(
    betsPlaced: int, betsWon: int, pointsEarned: int, winRate: int,
    longestStreak: int, currentStreak: int)

  datatype UserStats = UserStats(thisWeek: WindowStats, thisMonth: WindowStats, allTime: AllTimeStats)

  /** The session's user record. */
  datatype User = User(
    id: string,
    name: string,
    email: string,
    avatar: Option<string>,
    level: int,
    points: int,
    rank: int,
    winRate: int,
    totalBets: int,
    activeBets: int,
    notifications: int,
    joinedCommunities: seq<string>,
    badges: seq<Badge>,
    stats: UserStats)

  datatype Member = Member(id: string, name: string, avatar: Option<string>, points: int)

  /** A sport-themed group; `category` is one of the sport keys below. */
  datatype Community = Community(
    id: string,
    name: string,
    description: string,
    memberCount: int,
    activeMembers: int,
    totalBets: int,
    winRate: int,
    category: string,
    isJoined: bool,
    topMembers: seq<Member>,
    recentActivity: string)

  datatype Creator = Creator(id: string, name: string, avatar: Option<string>)

  datatype BetOption = BetOption(id: string, caption: string, participants: int, odds: Option<string>)

  datatype BetStatus = Active | Completed | Cancelled

  datatype PayoutStatus = Won | Lost | Pending

  datatype Payout = Payout(amount: int, status: PayoutStatus)

  /** A prediction market with several options. */
  datatype Bet = Bet(
    id: string,
    title: string,
    description: string,
    category: string,
    creator: Creator,
    status: BetStatus,
    endDate: string,
    participants: int,
    maxParticipants: Option<int>,
    pointsPool: int,
    options: seq<BetOption>,
    userChoice: Option<string>,
    payout: Option<Payout>)

  datatype RankedUser = RankedUser(id: string, name: string, avatar: Option<string>, level: Option<int>)

  datatype LeaderboardEntry = LeaderboardEntry(
    user: RankedUser,
    rank: int,
    points: int,
    weeklyChange: Option<int>,
    winRate: Option<int>,
    totalBets: Option<int>,
    streak: Option<int>,
    badges: seq<Badge>,
    isCurrentUser: Option<bool>)

  datatype CategoryShare = CategoryShare(category: string, count: int, percentage: int)

  datatype CommunityStats = CommunityStats(
    totalCommunities: int,
    totalMembers: int,
    activeBets: int,
    totalPointsPool: int,
    topCategories: seq<CategoryShare>)

  /** The five sport keys communities and bets are tagged with. */
  const SportKeys: seq<string> := ["nba", "nfl", "mlb", "nhl", "general"]

  /**
   * The three win-rate colour bands both the leaderboard row and the
   * community card use: 60 and above, 45 to 59, below 45.
   */
  datatype Tier = Strong | Fair | Weak

  function WinRateTier(winRate: int): (t: Tier)
    ensures t == Strong <==> winRate >= 60
    ensures t == Weak <==> winRate < 45
  {
    if winRate >= 60 then Strong else if winRate >= 45 then Fair else Weak
  }

  function TierOrder(t: Tier): nat {
    match t
    case Weak => 0
    case Fair => 1
    case Strong => 2
  }

  /** A higher win rate never lands in a lower band. */
  lemma WinRateTierMonotone(a: int, b: int)
    requires a <= b
    ensures TierOrder(WinRateTier(a)) <= TierOrder(WinRateTier(b))
  {
  }
}

=== FILE: home_page.dfy ===
/**
 * The dashboard: one category selector that narrows both the community
 * grid and the bet list, and a compact "Top Performers" card.
 */
module HomePage {
  import opened Wrappers
  import opened Domain
  import Seqs
  import LeaderboardItem
  import CommunitiesPage

  /** The community grid: every community for "all", otherwise those whose category equals the selection. */
  function CommunitiesFor(cs: seq<Community>, category: string): (r: seq<Community>)
    ensures category == "all" ==> r == cs
    ensures category != "all" ==> forall c :: c in r <==> c in cs && c.category == category
    ensures Seqs.Subseq(r, cs)
  {
    Seqs.SubseqRefl(cs);
    if category == "all" then cs else Seqs.Filter(cs, (c: Community) => c.category == category)
  }

  /** The bet list, by the same rule. */
  function BetsFor(bets: seq<Bet>, category: string): (r: seq<Bet>)
    ensures category == "all" ==> r == bets
    ensures category != "all" ==> forall b :: b in r <==> b in bets && b.category == category
    ensures Seqs.Subseq(r, bets)
  {
    Seqs.SubseqRefl(bets);
    if category == "all" then bets else Seqs.Filter(bets, (b: Bet) => b.category == category)
  }

  /**
   * The dashboard's selector agrees with the communities page's category
   * tab when that page has no search text and the "all" filter.
   */
  lemma AgreesWithCommunitiesPage(cs: seq<Community>, category: string)
    ensures CommunitiesFor(cs, category)
      == CommunitiesPage.FilteredCommunities(cs, CommunitiesPage.PageState("", category, "all"))
  {
    var s := CommunitiesPage.PageState("", category, "all");
    forall c | c in cs
      ensures CommunitiesPage.Shown(s, c) == CommunitiesPage.MatchesCategory(c, category)
    {
      CommunitiesPage.EmptySearchMatchesAll(c);
    }
    if category == "all" {
      assert forall i :: 0 <= i < |cs| ==> cs[i] in cs;
      Seqs.FilterKeepsAll(cs, c => CommunitiesPage.Shown(s, c));
    } else {
      Seqs.FilterEquiv(cs, (c: Community) => c.category == category, c => CommunitiesPage.Shown(s, c));
    }
  }

  /** Top Performers: the first five entries, each drawn compact and without stats. */
  function TopPerformers(board: seq<LeaderboardEntry>): (r: seq<LeaderboardItem.Props>)
    ensures |r| == Seqs.Min(5, |board|)
    ensures forall i :: 0 <= i < |r| ==>
      (r[i].user == board[i].user && r[i].rank == board[i].rank && r[i].points == board[i].points)
    ensures forall i :: 0 <= i < |r| ==>
      (r[i].badges == Some(board[i].badges) && r[i].isCurrentUser == board[i].isCurrentUser &&
       r[i].weeklyChange == board[i].weeklyChange && r[i].winRate == board[i].winRate &&
       r[i].totalBets == board[i].totalBets && r[i].streak == board[i].streak)
    ensures forall i :: 0 <= i < |r| ==> r[i].compact == Some(true) && r[i].showStats == Some(false)
  {
    Seqs.Map(Seqs.Take(board, 5),
      (e: LeaderboardEntry) => LeaderboardItem.FromEntry(e).(compact := Some(true), showStats := Some(false)))
  }

  /** The compact card shows no badges, weekly change or stats row for any of its entries. */
  lemma TopPerformersAreCompact(board: seq<LeaderboardEntry>, i: nat)
    requires i < |TopPerformers(board)|
    ensures var v := LeaderboardItem.Render(TopPerformers(board)[i]);
      v.badges.Nothing? && v.weekly.Nothing? && v.stats.Nothing?
  {
    LeaderboardItem.CompactHidesDetails(TopPerformers(board)[i]);
  }
}

=== FILE: jsx.dfy ===
/**
 * What a conditional JSX child `{x && <El/>}` renders to. React renders
 * `undefined`, `null`, `false` and `''` as nothing, but renders the number
 * `0` as the text "0": a falsy number guard leaks its value onto the page.
 */
module Jsx {
  import opened Wrappers

  datatype Rendered<+T> = Nothing | Text(text: string) | Element(content: T)

  /** `{n && el}` for an optional number. */
  function NumberGuard<T>(n: Option<int>, el: T): (r: Rendered<T>)
    ensures r.Element? <==> n.Some? && n.value != 0
    ensures r.Text? <==> n == Some(0)
    ensures r.Text? ==> r.text == "0"
    ensures r.Element? ==> r.content == el
  {
    match n
    case None => Nothing
    case Some(v) => if v == 0 then Text("0") else Element(el)
  }

  /** `{b && el}` for a boolean: `false` renders nothing. */
  function BoolGuard<T>(b: bool, el: T): (r: Rendered<T>)
    ensures r.Element? <==> b
    ensures !r.Text?
  {
    if b then Element(el) else Nothing
  }

  /** `{s && el}` for an optional string: `undefined` and `''` render nothing. */
  function StringGuard<T>(s: Option<string>, el: T): (r: Rendered<T>)
    ensures r.Element? <==> s.Some? && s.value != ""
    ensures !r.Text?
  {
    if s.Some? && s.value != "" then Element(el) else Nothing
  }
}

=== FILE: leaderboard_item.dfy ===
/**
 * One leaderboard row: the rank mark, the badge strip, the weekly change,
 * and the optional stats row with its win-rate colour band and streak.
 */
module LeaderboardItem {
  import opened Wrappers
  import opened Domain
  import opened Jsx
  import Text
  import Seqs

  /** The row's properties as callers pass them; absent ones are `None`. */
  datatype Props = Props(
    user: RankedUser,
    rank: int,
    points: int,
    weeklyChange: Option<int>,
    winRate: Option<int>,
    totalBets: Option<int>,
    streak: Option<int>,
    badges: Option<seq<Badge>>,
    isCurrentUser: Option<bool>,
    showStats: Option<bool>,
    compact: Option<bool>)

  /** The settings after destructuring defaults are applied. */
  datatype Settings = Settings(badges: seq<Badge>, isCurrentUser: bool, showStats: bool, compact: bool)

  /** `<LeaderboardItem {...entry} />`: every field of a leaderboard entry is passed; the display switches are not. */
  function FromEntry(e: LeaderboardEntry): (p: Props)
    ensures p.user == e.user && p.rank == e.rank && p.points == e.points
    ensures p.badges == Some(e.badges) && p.isCurrentUser == e.isCurrentUser
    ensures p.weeklyChange == e.weeklyChange && p.winRate == e.winRate && p.totalBets == e.totalBets && p.streak == e.streak
    ensures p.showStats.None? && p.compact.None?
  {
    Props(e.user, e.rank, e.points, e.weeklyChange, e.winRate, e.totalBets, e.streak,
      Some(e.badges), e.isCurrentUser, None, None)
  }

  /** Defaults: no badges, not the current user, stats shown, not compact. */
  function Resolve(p: Props): (s: Settings)
    ensures p.badges.None? ==> s.badges == []
    ensures p.isCurrentUser.None? ==> !s.isCurrentUser
    ensures p.showStats.None? ==> s.showStats
    ensures p.compact.None? ==> !s.compact
    ensures p.badges.Some? ==> s.badges == p.badges.value
    ensures p.isCurrentUser.Some? ==> s.isCurrentUser == p.isCurrentUser.value
    ensures p.showStats.Some? ==> s.showStats == p.showStats.value
    ensures p.compact.Some? ==> s.compact == p.compact.value
  {
    Settings(p.badges.GetOr([]), p.isCurrentUser.GetOr(false), p.showStats.GetOr(true), p.compact.GetOr(false))
  }

  datatype RankMark = Crown | Trophy | Medal | Number(text: string)

  /** Ranks 1, 2 and 3 get an icon; any other rank is written as `#rank`. */
  function RankDisplay(rank: int): (m: RankMark)
    ensures m == Crown <==> rank == 1
    ensures m == Trophy <==> rank == 2
    ensures m == Medal <==> rank == 3
    ensures m.Number? <==> rank < 1 || rank > 3
    ensures m.Number? ==> m.text == "#" + Text.IntToString(rank)
  {
    if rank == 1 then Crown
    else if rank == 2 then Trophy
    else if rank == 3 then Medal
    else Number("#" + Text.IntToString(rank))
  }

  /** The first badges and, when some are cut off, how many. */
  datatype BadgeStrip = BadgeStrip(shown: seq<Badge>, hidden: Option<int>)

  /** At most three badges, then `+n` for the rest; nothing in compact mode or without badges. */
  function BadgesDisplay(badges: seq<Badge>, compact: bool): (r: Rendered<BadgeStrip>)
    ensures r.Element? <==> |badges| > 0 && !compact
    ensures !r.Text?
    ensures r.Element? ==> r.content.shown <= badges && |r.content.shown| == Seqs.Min(3, |badges|)
    ensures r.Element? ==> (r.content.hidden.Some? <==> |badges| > 3)
    ensures r.Element? ==> |r.content.shown| + r.content.hidden.GetOr(0) == |badges|
  {
    BoolGuard(|badges| > 0 && !compact,
      BadgeStrip(Seqs.Take(badges, 3), if |badges| > 3 then Some(|badges| - 3) else None))
  }

  datatype Trend = Up(amount: int) | Down(amount: int) | Flat

  /** Up with a `+` for gains, down for losses, a dash for no change; omitted when unknown or compact. */
  function WeeklyChangeDisplay(weeklyChange: Option<int>, compact: bool): (r: Rendered<Trend>)
    ensures r.Element? <==> weeklyChange.Some? && !compact
    ensures !r.Text?
    ensures r.Element? ==> (r.content.Up? <==> weeklyChange.value > 0)
    ensures r.Element? ==> (r.content.Down? <==> weeklyChange.value < 0)
    ensures r.Element? && !r.content.Flat? ==> r.content.amount == weeklyChange.value
  {
    BoolGuard(weeklyChange.Some? && !compact,
      var w := weeklyChange.GetOr(0);
      if w > 0 then Up(w) else if w < 0 then Down(w) else Flat)
  }

  /**
   * `{streak && streak > 0 && <Streak/>}` exactly as written: a streak of
   * 0 is falsy, so the expression yields the number 0 and React prints "0".
   */
  function StreakAsWritten(streak: Option<int>): (r: Rendered<int>)
    ensures r.Element? <==> streak.Some? && streak.value > 0
    ensures r.Text? <==> streak == Some(0)
    ensures r.Element? ==> r.content == streak.value
  {
    match NumberGuard(streak, streak.GetOr(0))
    case Element(s) => if s > 0 then Element(s) else Nothing
    case other => other
  }

  /** The streak indicator as intended: shown for a positive streak, otherwise nothing at all. */
  function StreakIndicator(streak: Option<int>): (r: Rendered<int>)
    ensures r.Element? <==> streak.Some? && streak.value > 0
    ensures !r.Text?
    ensures r.Element? ==> r.content == streak.value
  {
    if streak.Some? && streak.value > 0 then Element(streak.value) else Nothing
  }

  /** The two streak renderings differ on exactly one input: a streak of 0. */
  lemma StreakZeroLeaks(streak: Option<int>)
    ensures StreakAsWritten(streak) != StreakIndicator(streak) <==> streak == Some(0)
    ensures StreakAsWritten(Some(0)) == Text("0")
  {
  }

  datatype StatsRow = StatsRow(winRate: Rendered<Tier>, totalBets: Rendered<int>, streak: Rendered<int>)

  /** A number JavaScript treats as true: present and non-zero. */
  predicate Truthy(n: Option<int>) {
    n.Some? && n.value != 0
  }

  /**
   * `{showStats && !compact && (winRate || totalBets || streak) && <Row/>}`.
   * The row appears when stats are on, the row is not compact and one of
   * the three numbers is non-zero. When all three are falsy the `||`
   * chain yields `streak`, so a streak of exactly 0 prints "0".
   */
  function StatsRowDisplay(showStats: bool, compact: bool, winRate: Option<int>, totalBets: Option<int>, streak: Option<int>): (r: Rendered<StatsRow>)
    ensures r.Element? <==> showStats && !compact && (Truthy(winRate) || Truthy(totalBets) || Truthy(streak))
    ensures r.Text? <==> showStats && !compact && !Truthy(winRate) && !Truthy(totalBets) && streak == Some(0)
    ensures r.Element? ==> (r.content.winRate.Element? <==> Truthy(winRate))
    ensures r.Element? && r.content.winRate.Element? ==> r.content.winRate.content == WinRateTier(winRate.value)
    ensures r.Element? ==> r.content.streak == StreakAsWritten(streak)
  {
    if !showStats || compact then Nothing
    else if Truthy(winRate) || Truthy(totalBets) || Truthy(streak) then
      Element(StatsRow(
        NumberGuard(winRate, WinRateTier(winRate.GetOr(0))),
        NumberGuard(totalBets, totalBets.GetOr(0)),
        StreakAsWritten(streak)))
    else if streak == Some(0) then Text("0")
    else Nothing
  }

  /** Everything the row renders, in model terms. */
  datatype ItemView = ItemView(
    highlighted: bool,
    rank: RankMark,
    youBadge: bool,
    level: Rendered<int>,
    badges: Rendered<BadgeStrip>,
    weekly: Rendered<Trend>,
    stats: Rendered<StatsRow>)

  /** The whole row, after defaults. */
  function Render(p: Props): (v: ItemView)
    ensures v.highlighted == v.youBadge == Resolve(p).isCurrentUser
    ensures v.rank == RankDisplay(p.rank)
    ensures v.badges == BadgesDisplay(Resolve(p).badges, Resolve(p).compact)
    ensures v.weekly == WeeklyChangeDisplay(p.weeklyChange, Resolve(p).compact)
    ensures v.stats == StatsRowDisplay(Resolve(p).showStats, Resolve(p).compact, p.winRate, p.totalBets, p.streak)
  {
    var s := Resolve(p);
    ItemView(
      s.isCurrentUser,
      RankDisplay(p.rank),
      s.isCurrentUser,
      NumberGuard(p.user.level, p.user.level.GetOr(0)),
      BadgesDisplay(s.badges, s.compact),
      WeeklyChangeDisplay(p.weeklyChange, s.compact),
      StatsRowDisplay(s.showStats, s.compact, p.winRate, p.totalBets, p.streak))
  }

  /** A compact row shows no badges, no weekly change and no stats, whatever else it is given. */
  lemma CompactHidesDetails(p: Props)
    requires p.compact == Some(true)
    ensures Render(p).badges == Nothing && Render(p).weekly == Nothing && Render(p).stats == Nothing
  {
  }
}

=== FILE: leaderboards_page.dfy ===
/**
 * The leaderboards page: the shared leaderboard extended with five more
 * players, split into a podium and the rest, the per-sport columns that
 * renumber the first five, the current-player highlight, and the page's
 * selectors, which change state but not the lists.
 */
module LeaderboardsPage {
  import opened Wrappers
  import opened Domain
  import Seqs
  import LeaderboardItem
  import MockData

  /** The five players the page appends to the shared leaderboard, ranked 6 to 10. */
  const ExtraEntries: seq<LeaderboardEntry> := [
    LeaderboardEntry(
      RankedUser("user-9", "BaseballBoss", Some("/avatars/baseballboss.jpg"), Some(38)),
      6, 18450, Some(345), Some(62), Some(67), Some(1),
      [ Badge("badge-9", "MLB Pro", Blue) ],
      None),
    LeaderboardEntry(
      RankedUser("user-10", "HockeyHero", Some("/avatars/hockeyhero.jpg"), Some(35)),
      7, 17230, Some(-45), Some(58), Some(92), Some(0),
      [ Badge("badge-10", "Ice Cold", Silver) ],
      None),
    LeaderboardEntry(
      RankedUser("user-11", "AllSportsAce", Some("/avatars/allsportsace.jpg"), Some(42)),
      8, 16890, Some(678), Some(69), Some(124), Some(3),
      [ Badge("badge-11", "Versatile", Green), Badge("badge-12", "Rising Star", Gold) ],
      None),
    LeaderboardEntry(
      RankedUser("user-12", "BetMaster2000", Some("/avatars/betmaster2000.jpg"), Some(33)),
      9, 15670, Some(123), Some(55), Some(156), Some(0),
      [ Badge("badge-13", "Grinder", Bronze) ],
      None),
    LeaderboardEntry(
      RankedUser("user-13", "ProPicker", Some("/avatars/propicker.jpg"), Some(29)),
      10, 14320, Some(-234), Some(64), Some(78), Some(0),
      [ Badge("badge-14", "Analyst", Blue) ],
      None)
  ]

  const ExtendedLeaderboard: seq<LeaderboardEntry> := MockData.MockLeaderboard + ExtraEntries

  /** The extended board has ten entries ranked 1 to 10 in strictly decreasing order of points. */
  lemma ExtendedLeaderboardOrdered()
    ensures |ExtendedLeaderboard| == 10
    ensures MockData.RanksSequential(ExtendedLeaderboard)
    ensures MockData.PointsStrictlyDecreasing(ExtendedLeaderboard)
    ensures ExtendedLeaderboard[..5] == MockData.MockLeaderboard
  {
    MockData.MockLeaderboardOrdered();
  }

  /** The podium: the first three entries. */
  function TopThree(board: seq<LeaderboardEntry>): (r: seq<LeaderboardEntry>)
    ensures |r| == Seqs.Min(3, |board|)
    ensures r <= board
  {
    Seqs.Take(board, 3)
  }

  /** The rest of the rankings: everything after the podium. */
  function Others(board: seq<LeaderboardEntry>): (r: seq<LeaderboardEntry>)
    ensures TopThree(board) + r == board
  {
    Seqs.Drop(board, 3)
  }

  datatype TimeFrame = AllTime | Monthly | Weekly

  datatype SportFilter = AllSports | Nba | Nfl | Mlb | Nhl

  /** The page's selections: time frame, sport and whether stats are shown. */
  datatype PageState = PageState(timeFrame: TimeFrame, category: SportFilter, showStats: bool)

  const InitialState := PageState(AllTime, AllSports, true)

  /** The Show/Hide Stats button flips `showStats` and leaves the selectors alone. */
  function ToggleStats(s: PageState): (r: PageState)
    ensures r.showStats == !s.showStats
    ensures r.timeFrame == s.timeFrame && r.category == s.category
  {
    s.(showStats := !s.showStats)
  }

  function SetTimeFrame(s: PageState, t: TimeFrame): (r: PageState)
    ensures r.timeFrame == t && r.category == s.category && r.showStats == s.showStats
  {
    s.(timeFrame := t)
  }

  function SetCategory(s: PageState, c: SportFilter): (r: PageState)
    ensures r.category == c && r.timeFrame == s.timeFrame && r.showStats == s.showStats
  {
    s.(category := c)
  }

  /** Whether an entry belongs to the signed-in player: its user id equals the demo user's id. */
  predicate IsCurrentUser(e: LeaderboardEntry) {
    e.user.id == MockData.MockUser.id
  }

  /** A ranking row: the entry, the page's `showStats`, and a freshly computed current-player flag. */
  function RankingRows(board: seq<LeaderboardEntry>, s: PageState): (r: seq<LeaderboardItem.Props>)
    ensures |r| == |board|
    ensures forall i :: 0 <= i < |r| ==>
      (r[i].user == board[i].user && r[i].rank == board[i].rank && r[i].points == board[i].points)
    ensures forall i :: 0 <= i < |r| ==>
      (r[i].badges == Some(board[i].badges) && r[i].weeklyChange == board[i].weeklyChange &&
       r[i].winRate == board[i].winRate && r[i].totalBets == board[i].totalBets && r[i].streak == board[i].streak)
    ensures forall i :: 0 <= i < |r| ==> r[i].isCurrentUser == Some(IsCurrentUser(board[i]))
    ensures forall i :: 0 <= i < |r| ==> r[i].showStats == Some(s.showStats) && r[i].compact.None?
  {
    Seqs.Map(board, (e: LeaderboardEntry) => RankingRow(e, s))
  }

  /** One entry's row: every field spread, then the page's `showStats` and the recomputed flag. */
  function RankingRow(e: LeaderboardEntry, s: PageState): LeaderboardItem.Props {
    LeaderboardItem.FromEntry(e).(showStats := Some(s.showStats), isCurrentUser := Some(IsCurrentUser(e)))
  }

  /** The Rankings tab: the podium rows, then the other rows. */
  function Rankings(board: seq<LeaderboardEntry>, s: PageState): (r: (seq<LeaderboardItem.Props>, seq<LeaderboardItem.Props>))
    ensures r.0 + r.1 == RankingRows(board, s)
  {
    assert TopThree(board) + Others(board) == board;
    RankingRowsConcat(TopThree(board), Others(board), s);
    (RankingRows(TopThree(board), s), RankingRows(Others(board), s))
  }

  /** The rows of two boards laid end to end are the two boards' rows laid end to end. */
  lemma RankingRowsConcat(a: seq<LeaderboardEntry>, b: seq<LeaderboardEntry>, s: PageState)
    ensures RankingRows(a + b, s) == RankingRows(a, s) + RankingRows(b, s)
  {
    var l, r := RankingRows(a + b, s), RankingRows(a, s) + RankingRows(b, s);
    forall i | 0 <= i < |l|
      ensures l[i] == r[i]
    {
      if i < |a| {
        assert (a + b)[i] == a[i];
      } else {
        assert (a + b)[i] == b[i - |a|];
      }
    }
  }

  /** Neither the time frame nor the sport selector changes what the Rankings tab lists. */
  lemma RankingsIgnoreSelectors(board: seq<LeaderboardEntry>, s: PageState, t: TimeFrame, c: SportFilter)
    ensures Rankings(board, SetCategory(SetTimeFrame(s, t), c)) == Rankings(board, s)
  {
    var s' := SetCategory(SetTimeFrame(s, t), c);
    RowsFollowShowStats(TopThree(board), s, s');
    RowsFollowShowStats(Others(board), s, s');
  }

  /** The rows depend on the page only through its `showStats` switch. */
  lemma RowsFollowShowStats(board: seq<LeaderboardEntry>, s: PageState, s': PageState)
    requires s.showStats == s'.showStats
    ensures RankingRows(board, s) == RankingRows(board, s')
  {
    var l, r := RankingRows(board, s), RankingRows(board, s');
    assert forall i :: 0 <= i < |l| ==> l[i] == r[i];
  }

  /** One sport column: the first five entries renumbered 1 to 5, compact and without stats. */
  function SportColumn(board: seq<LeaderboardEntry>): (r: seq<LeaderboardItem.Props>)
    ensures |r| == Seqs.Min(5, |board|)
    ensures forall i :: 0 <= i < |r| ==> r[i].rank == i + 1
    ensures forall i :: 0 <= i < |r| ==>
      (r[i].user == board[i].user && r[i].points == board[i].points && r[i].isCurrentUser == Some(IsCurrentUser(board[i])))
    ensures forall i :: 0 <= i < |r| ==> r[i].compact == Some(true) && r[i].showStats == Some(false)
  {
    var top := Seqs.Take(board, 5);
    seq(|top|, i requires 0 <= i < |top| =>
      LeaderboardItem.FromEntry(top[i]).(rank := i + 1, compact := Some(true), showStats := Some(false),
        isCurrentUser := Some(IsCurrentUser(top[i]))))
  }

  /** The four sport cards, NBA, NFL, MLB and NHL, all list the same column. */
  function SportCards(board: seq<LeaderboardEntry>): (r: seq<(string, seq<LeaderboardItem.Props>)>)
    ensures |r| == 4
    ensures forall i :: 0 <= i < 4 ==> r[i].1 == SportColumn(board)
  {
    var column := SportColumn(board);
    [("NBA", column), ("NFL", column), ("MLB", column), ("NHL", column)]
  }

  /** On a board whose ranks are already 1, 2, 3, ... renumbering changes no rank. */
  lemma SportColumnKeepsSequentialRanks(board: seq<LeaderboardEntry>)
    requires MockData.RanksSequential(board)
    ensures forall i :: 0 <= i < |SportColumn(board)| ==> SportColumn(board)[i].rank == board[i].rank
  {
  }

  /** Exactly one entry of the extended board is the signed-in player: the third. */
  lemma CurrentUserIsThird()
    ensures forall i :: 0 <= i < |ExtendedLeaderboard| ==> (IsCurrentUser(ExtendedLeaderboard[i]) <==> i == 2)
  {
  }

  /** The recomputed flag agrees with the flag the shared leaderboard stores on its own entries. */
  lemma FlagAgreesWithStoredFlag()
    ensures forall i :: 0 <= i < |MockData.MockLeaderboard| ==>
      (IsCurrentUser(MockData.MockLeaderboard[i]) <==> MockData.MockLeaderboard[i].isCurrentUser == Some(true))
  {
  }
}

=== FILE: main_nav.dfy ===
/**
 * The top navigation bar: which of the four sections is highlighted for
 * the current path, the notification count on the bell, and the mobile
 * menu's open/closed state.
 */
module MainNav {
  import opened Wrappers
  import opened Jsx
  import Text

  datatype NavItem = NavItem(title: string, href: string)

  const Dashboard := NavItem("Dashboard", "/")
  const Communities := NavItem("Communities", "/communities")
  const Leaderboards := NavItem("Leaderboards", "/leaderboards")
  const MyBets := NavItem("My Bets", "/my-bets")

  /** The four sections in the order the bar lists them. */
  const NavItems: seq<NavItem> := [Dashboard, Communities, Leaderboards, MyBets]

  /**
   * An item is highlighted when the path equals its href, or, for every
   * item but the dashboard, when the path starts with its href. The path
   * is `null` before the router knows it, and then nothing is highlighted.
   */
  function IsActive(pathname: Option<string>, href: string): (active: bool)
    ensures pathname.None? ==> !active
    ensures pathname == Some(href) ==> active
    ensures active ==> href <= pathname.value
    ensures href == "/" ==> (active <==> pathname == Some("/"))
    ensures href != "/" && pathname.Some? && href <= pathname.value ==> active
  {
    pathname == Some(href) || (href != "/" && pathname.Some? && href <= pathname.value)
  }

  /** The dashboard is highlighted on the root path only. */
  lemma DashboardOnlyAtRoot(pathname: Option<string>)
    ensures IsActive(pathname, Dashboard.href) <==> pathname == Some("/")
  {
  }

  /** Each other section is highlighted on its own path and on every path below it. */
  lemma SectionActiveBelow(item: NavItem, rest: string)
    requires item in NavItems && item != Dashboard
    ensures IsActive(Some(item.href), item.href)
    ensures IsActive(Some(item.href + "/" + rest), item.href)
  {
    assert item.href <= item.href + "/" + rest;
  }

  /**
   * `startsWith` compares raw characters, not path segments, so a path
   * that merely begins with a section's name highlights that section.
   */
  lemma RawPrefixQuirk()
    ensures IsActive(Some("/communitiesX"), Communities.href)
    ensures IsActive(Some("/my-bets-archive"), MyBets.href)
  {
    assert "/communities" <= "/communitiesX";
    assert "/my-bets" <= "/my-bets-archive";
  }

  /** No path highlights two sections: none of the hrefs is a prefix of another but the root. */
  lemma AtMostOneActive(pathname: Option<string>, a: NavItem, b: NavItem)
    requires a in NavItems && b in NavItems
    requires IsActive(pathname, a.href) && IsActive(pathname, b.href)
    ensures a == b
  {
    var p := pathname.value;
    if a.href != "/" && b.href != "/" {
      // Both hrefs are prefixes of the path, and the sections differ in their second character.
      assert a.href[1] == p[1] == b.href[1];
    }
  }

  /**
   * The bell's badge exactly as written: `{n && n > 0 && <Badge/>}`. An
   * absent or negative count shows nothing, more than nine shows "9+",
   * and a count of exactly 0 leaks the text "0" next to the bell.
   */
  function NotificationBadgeAsWritten(notifications: Option<int>): (r: Rendered<string>)
    ensures r.Text? <==> notifications == Some(0)
    ensures r.Element? <==> notifications.Some? && notifications.value > 0
    ensures r.Element? ==> (r.content == "9+" <==> notifications.value > 9)
  {
    var n := notifications.GetOr(0);
    match NumberGuard(notifications, n)
    case Element(_) => if n > 0 then Element(if n > 9 then "9+" else Text.IntToString(n)) else Nothing
    case Text(t) => Text(t)
    case Nothing => Nothing
  }

  /** The badge as intended: shown for a positive count, capped at "9+", absent otherwise. */
  function NotificationBadge(notifications: Option<int>): (r: Rendered<string>)
    ensures !r.Text?
    ensures r.Element? <==> notifications.Some? && notifications.value > 0
    ensures r.Element? && notifications.value <= 9 ==> r.content == Text.IntToString(notifications.value)
    ensures r.Element? && notifications.value > 9 ==> r.content == "9+"
  {
    if notifications.Some? && notifications.value > 0 then
      Element(if notifications.value > 9 then "9+" else Text.IntToString(notifications.value))
    else Nothing
  }

  /** The two badges agree on every count except 0. */
  lemma NotificationZeroLeaks(notifications: Option<int>)
    ensures NotificationBadgeAsWritten(notifications) != NotificationBadge(notifications) <==> notifications == Some(0)
    ensures NotificationBadgeAsWritten(Some(0)) == Text("0")
  {
  }

  /** A badge always fits in two characters. */
  lemma NotificationBadgeShort(notifications: Option<int>)
    ensures NotificationBadge(notifications).Element? ==> |NotificationBadge(notifications).content| <= 2
  {
  }

  /** The menu button flips the mobile menu; following a link in it closes it. */
  function ToggleMenu(open: bool): (r: bool)
    ensures r != open
  {
    !open
  }

  function FollowMobileLink(open: bool): (r: bool)
    ensures !r
  {
    false
  }

  /** Toggling twice returns to where it started. */
  lemma ToggleMenuTwice(open: bool)
    ensures ToggleMenu(ToggleMenu(open)) == open
  {
  }
}

=== FILE: mock_data.dfy ===
/**
 * The static dataset every page reads (the repository's stand-in for a
 * database), and the consistency facts its records satisfy: win rates are
 * the rounded ratios of bets won to bets placed, leaderboard ranks follow
 * the points, option participants add up to a bet's participants, and the
 * demo user agrees with the leaderboard and with the communities it joined.
 * The string values keep the dataset's literal `{{...}}` markers.
 */
module MockData {
  import opened Wrappers
  import opened Domain
  import Seqs
  import BetCard

  const Community1: Community := Community(
    "{{community-1}}", "{{NBA Finals Fanatics}}",
    "{{The ultimate destination for NBA championship betting and discussion. Join fellow basketball enthusiasts for playoff predictions and Finals betting action.}}",
    2547, 89, 1432, 67, "nba", true,
    [ Member("{{user-1}}", "{{CourtVision}}", Some("{{/avatars/courtvision.jpg}}"), 15420),
      Member("{{user-2}}", "{{DunkMaster}}", Some("{{/avatars/dunkmaster.jpg}}"), 12890),
      Member("{{user-3}}", "{{ThreePointKing}}", Some("{{/avatars/threepointking.jpg}}"), 11650) ],
    "{{3 new bets created in the last hour}}")

  const Community2: Community := Community(
    "{{community-2}}", "{{NFL RedZone Warriors}}",
    "{{Sunday football betting community focused on RedZone action, touchdown props, and game-changing plays. Perfect for fantasy football fans.}}",
    3821, 127, 2108, 58, "nfl", false,
    [ Member("{{user-4}}", "{{GridironGuru}}", Some("{{/avatars/gridironguru.jpg}}"), 18930),
      Member("{{user-5}}", "{{TouchdownTitan}}", Some("{{/avatars/touchdowntitan.jpg}}"), 16750) ],
    "{{GameWinner just won 2,500 points on Chiefs vs Bills over/under}}")

  const Community3: Community := Community(
    "{{community-3}}", "{{Baseball Diamond Bets}}",
    "{{America's pastime meets modern betting. World Series predictions, MVP races, and statistical analysis for true baseball enthusiasts.}}",
    1876, 52, 987, 61, "mlb", true,
    [ Member("{{user-6}}", "{{HomeRunHero}}", Some("{{/avatars/homerrunhero.jpg}}"), 9870) ],
    "{{New World Series prediction bet opened}}")

  const Community4: Community := Community(
    "{{community-4}}", "{{Hockey Puck Predictions}}",
    "{{Ice-cold takes and red-hot betting opportunities. Stanley Cup playoffs, hat trick props, and overtime thriller predictions for hockey fans.}}",
    1245, 31, 654, 55, "nhl", false,
    [ Member("{{user-7}}", "{{PuckMaster}}", Some("{{/avatars/puckmaster.jpg}}"), 7650) ],
    "{{IceBreaker predicted correct playoff upset}}")

  const MockCommunities: seq<Community> := [Community1, Community2, Community3, Community4]

  const Bet1Options: seq<BetOption> := [
    BetOption("{{option-1}}", "{{Los Angeles Lakers}}", 142, Some("{{-110}}")),
    BetOption("{{option-2}}", "{{Golden State Warriors}}", 105, Some("{{+105}}"))
  ]

  const Bet2Options: seq<BetOption> := [
    BetOption("{{option-3}}", "{{Josh Allen (Bills)}}", 487, Some("{{+350}}")),
    BetOption("{{option-4}}", "{{Patrick Mahomes (Chiefs)}}", 623, Some("{{+280}}")),
    BetOption("{{option-5}}", "{{Lamar Jackson (Ravens)}}", 312, Some("{{+450}}")),
    BetOption("{{option-6}}", "{{Other Quarterback}}", 412, Some("{{+600}}"))
  ]

  const Bet3Options: seq<BetOption> := [
    BetOption("{{option-7}}", "{{Los Angeles Dodgers}}", 89, Some("{{+400}}")),
    BetOption("{{option-8}}", "{{New York Yankees}}", 76, Some("{{+450}}")),
    BetOption("{{option-9}}", "{{Atlanta Braves}}", 54, Some("{{+550}}")),
    BetOption("{{option-10}}", "{{Other Team}}", 348, Some("{{+200}}"))
  ]

  const MockBets: seq<Bet> := [
    Bet(
      "{{bet-1}}", "{{Lakers vs Warriors - Who Wins Game 7?}}",
      "{{The ultimate showdown between two Western Conference powerhouses. LeBron's experience vs Curry's clutch factor. Winner takes all!}}",
      "nba", Creator("{{user-1}}", "{{CourtVision}}", Some("{{/avatars/courtvision.jpg}}")),
      Active, "{{2025-05-15T21:00:00Z}}", 247, Some(500), 124350,
      Bet1Options,
      Some("{{option-1}}"), None),
    Bet(
      "{{bet-2}}", "{{NFL MVP 2025 Season Winner}}",
      "{{Who will take home the Most Valuable Player award for the 2025 NFL season? Make your prediction now before the season starts!}}",
      "nfl", Creator("{{user-4}}", "{{GridironGuru}}", Some("{{/avatars/gridironguru.jpg}}")),
      Active, "{{2025-12-31T23:59:59Z}}", 1834, None, 918700,
      Bet2Options,
      None, None),
    Bet(
      "{{bet-3}}", "{{World Series 2025 Champion}}",
      "{{Spring training is over, regular season is underway. Which team will hoist the Commissioner's Trophy in October?}}",
      "mlb", Creator("{{user-6}}", "{{HomeRunHero}}", Some("{{/avatars/homerrunhero.jpg}}")),
      Active, "{{2025-10-01T00:00:00Z}}", 567, None, 283500,
      Bet3Options,
      None, Some(Payout(1250, Won)))
  ]

  const MockLeaderboard: seq<LeaderboardEntry> := [
    LeaderboardEntry(
      RankedUser("{{user-1}}", "{{CourtVision}}", Some("{{/avatars/courtvision.jpg}}"), Some(47)),
      1, 25890, Some(1240), Some(73), Some(89), Some(7),
      [ Badge("{{badge-1}}", "{{NBA Expert}}", Gold), Badge("{{badge-2}}", "{{Hot Streak}}", Red) ],
      None),
    LeaderboardEntry(
      RankedUser("{{user-4}}", "{{GridironGuru}}", Some("{{/avatars/gridironguru.jpg}}"), Some(52)),
      2, 24150, Some(890), Some(68), Some(134), Some(4),
      [ Badge("{{badge-3}}", "{{NFL Master}}", Gold), Badge("{{badge-4}}", "{{Consistent}}", Blue) ],
      None),
    LeaderboardEntry(
      RankedUser("{{user-8}}", "{{SportsBetKing}}", Some("{{/avatars/sportsbetking.jpg}}"), Some(44)),
      3, 22670, Some(567), Some(71), Some(76), Some(5),
      [ Badge("{{badge-5}}", "{{Multi-Sport}}", Green) ],
      Some(true)),
    LeaderboardEntry(
      RankedUser("{{user-2}}", "{{DunkMaster}}", Some("{{/avatars/dunkmaster.jpg}}"), Some(39)),
      4, 21340, Some(-120), Some(65), Some(98), Some(0),
      [ Badge("{{badge-6}}", "{{Rookie}}", Bronze) ],
      None),
    LeaderboardEntry(
      RankedUser("{{user-5}}", "{{TouchdownTitan}}", Some("{{/avatars/touchdowntitan.jpg}}"), Some(41)),
      5, 19780, Some(234), Some(59), Some(112), Some(2),
      [ Badge("{{badge-7}}", "{{Team Player}}", Blue) ],
      None)
  ]

  /** The demo account: seeded on first visit and used as the template for sign-in. */
  const MockUser: User := User(
    "{{user-8}}", "{{SportsBetKing}}", "{{sportsbetking@example.com}}",
    Some("{{/avatars/sportsbetking.jpg}}"),
    44, 22670, 3, 71, 76, 12, 5,
    ["{{community-1}}", "{{community-3}}"],
    [ Badge("{{badge-5}}", "{{Multi-Sport}}", Green), Badge("{{badge-8}}", "{{Veteran}}", Silver) ],
    UserStats(
      WindowStats(8, 5, 567, 63),
      WindowStats(23, 16, 1890, 70),
      AllTimeStats(76, 54, 22670, 71, 9, 5)))

  const MockCommunityStats: CommunityStats := CommunityStats(
    247, 15680, 1432, 2847690,
    [ CategoryShare("nfl", 89, 36),
      CategoryShare("nba", 67, 27),
      CategoryShare("mlb", 45, 18),
      CategoryShare("nhl", 34, 14),
      CategoryShare("general", 12, 5) ])

  // ----- Consistency of the dataset -----

  /**
   * `Math.round(100 * won / placed)`: the percentage rounded to the nearest
   * integer, halves upward (`Math.round(62.5)` is 63).
   */
  function RoundedPercent(won: int, placed: int): (r: int)
    requires placed > 0
    ensures 2 * placed * r - placed <= 200 * won < 2 * placed * r + placed
  {
    (200 * won + placed) / (2 * placed)
  }

  /** A stats window whose win rate is the rounded share of bets won. */
  predicate WindowConsistent(placed: int, won: int, winRate: int) {
    0 <= won <= placed && winRate == (if placed > 0 then RoundedPercent(won, placed) else 0)
  }

  /** Every window of the demo user is consistent: 5/8 gives 63, 16/23 gives 70, 54/76 gives 71. */
  lemma MockUserWindowsConsistent()
    ensures WindowConsistent(MockUser.stats.thisWeek.betsPlaced, MockUser.stats.thisWeek.betsWon, MockUser.stats.thisWeek.winRate)
    ensures WindowConsistent(MockUser.stats.thisMonth.betsPlaced, MockUser.stats.thisMonth.betsWon, MockUser.stats.thisMonth.winRate)
    ensures WindowConsistent(MockUser.stats.allTime.betsPlaced, MockUser.stats.allTime.betsWon, MockUser.stats.allTime.winRate)
    ensures MockUser.stats.allTime.currentStreak <= MockUser.stats.allTime.longestStreak
  {
  }

  /** The demo user's headline numbers are its all-time numbers. */
  lemma MockUserHeadlineIsAllTime()
    ensures MockUser.points == MockUser.stats.allTime.pointsEarned
    ensures MockUser.winRate == MockUser.stats.allTime.winRate
    ensures MockUser.totalBets == MockUser.stats.allTime.betsPlaced
  {
  }

  /** Entry `i` holds rank `i + 1`. */
  ghost predicate RanksSequential(board: seq<LeaderboardEntry>) {
    forall i :: 0 <= i < |board| ==> board[i].rank == i + 1
  }

  /** Each entry has strictly more points than the next. */
  ghost predicate PointsStrictlyDecreasing(board: seq<LeaderboardEntry>) {
    forall i :: 0 <= i < |board| - 1 ==> board[i].points > board[i + 1].points
  }

  lemma MockLeaderboardOrdered()
    ensures |MockLeaderboard| == 5
    ensures RanksSequential(MockLeaderboard)
    ensures PointsStrictlyDecreasing(MockLeaderboard)
  {
  }

  /** Each bet's option participants add up to its participants: 247, 1834 and 567. */
  lemma MockBetsParticipantsAgree()
    ensures BetCard.TotalOptionParticipants(Bet1Options) == MockBets[0].participants == 247
    ensures BetCard.TotalOptionParticipants(Bet2Options) == MockBets[1].participants == 1834
    ensures BetCard.TotalOptionParticipants(Bet3Options) == MockBets[2].participants == 567
    ensures MockBets[0].options == Bet1Options && MockBets[1].options == Bet2Options && MockBets[2].options == Bet3Options
  {
  }

  function ShareCountSum(shares: seq<CategoryShare>): int {
    if shares == [] then 0 else shares[0].count + ShareCountSum(shares[1..])
  }

  function SharePercentSum(shares: seq<CategoryShare>): int {
    if shares == [] then 0 else shares[0].percentage + SharePercentSum(shares[1..])
  }

  /** The category breakdown covers every community and every percent. */
  lemma MockCommunityStatsAgree()
    ensures ShareCountSum(MockCommunityStats.topCategories) == MockCommunityStats.totalCommunities
    ensures SharePercentSum(MockCommunityStats.topCategories) == 100
  {
  }

  /** The one leaderboard entry flagged as the current user is the demo user's. */
  lemma CurrentUserEntryAgrees()
    ensures forall i :: 0 <= i < |MockLeaderboard| ==> (MockLeaderboard[i].isCurrentUser == Some(true) <==> i == 2)
    ensures MockLeaderboard[2].user.id == MockUser.id
    ensures MockLeaderboard[2].rank == MockUser.rank
    ensures MockLeaderboard[2].points == MockUser.points
  {
  }

  function IsJoined(c: Community): bool {
    c.isJoined
  }

  function CommunityId(c: Community): string {
    c.id
  }

  /** The demo user's joined communities are exactly the communities flagged as joined, in order. */
  lemma JoinedCommunitiesAgree()
    ensures MockUser.joinedCommunities == Seqs.Map(Seqs.Filter(MockCommunities, IsJoined), CommunityId)
  {
    var s := MockCommunities;
    assert s[1..][1..][1..][1..] == [];
    assert Seqs.Filter(s[1..][1..][1..], IsJoined) == [];
    assert Seqs.Filter(s[1..][1..], IsJoined) == [Community3];
    assert Seqs.Filter(s[1..], IsJoined) == [Community3];
    assert Seqs.Filter(s, IsJoined) == [Community1, Community3];
  }
}

=== FILE: my_bets.dfy ===
/**
 * The "My Bets" page: the player's bets split by status and outcome, the
 * total winnings and win rate shown in the header, and the tab and
 * filter-chip selection of which bets are listed.
 */
module MyBets {
  import opened Wrappers
  import opened Domain
  import Text
  import Seqs
  import BetCard
  import MockData

  predicate IsActive(b: Bet) {
    b.status == Active
  }

  predicate IsCompleted(b: Bet) {
    b.status == Completed
  }

  predicate IsCancelled(b: Bet) {
    b.status == Cancelled
  }

  /** `bet.payout?.status === 'won'`. */
  predicate IsWon(b: Bet) {
    b.payout.Some? && b.payout.value.status == Won
  }

  predicate IsUnwon(b: Bet) {
    !IsWon(b)
  }

  predicate IsLost(b: Bet) {
    b.payout.Some? && b.payout.value.status == Lost
  }

  function ActiveBets(bets: seq<Bet>): (r: seq<Bet>)
    ensures forall b :: b in r <==> b in bets && b.status == Active
    ensures Seqs.Subseq(r, bets)
  {
    Seqs.Filter(bets, IsActive)
  }

  function CompletedBets(bets: seq<Bet>): (r: seq<Bet>)
    ensures forall b :: b in r <==> b in bets && b.status == Completed
    ensures Seqs.Subseq(r, bets)
  {
    Seqs.Filter(bets, IsCompleted)
  }

  /** The completed bets whose payout says won. */
  function WonBets(bets: seq<Bet>): (r: seq<Bet>)
    ensures forall b :: b in r <==> b in CompletedBets(bets) && IsWon(b)
    ensures Seqs.Subseq(r, CompletedBets(bets))
  {
    Seqs.Filter(CompletedBets(bets), IsWon)
  }

  /** The completed bets whose payout says lost. */
  function LostBets(bets: seq<Bet>): (r: seq<Bet>)
    ensures forall b :: b in r <==> b in CompletedBets(bets) && IsLost(b)
    ensures Seqs.Subseq(r, CompletedBets(bets))
  {
    Seqs.Filter(CompletedBets(bets), IsLost)
  }

  /** Every bet is active, completed or cancelled: the three lists split the bets between them. */
  lemma {:induction false} StatusPartition(bets: seq<Bet>)
    ensures |ActiveBets(bets)| + |CompletedBets(bets)| + |Seqs.Filter(bets, IsCancelled)| == |bets|
    ensures multiset(ActiveBets(bets)) + multiset(CompletedBets(bets)) + multiset(Seqs.Filter(bets, IsCancelled))
      == multiset(bets)
    decreases |bets|
  {
    if bets != [] {
      StatusPartition(bets[1..]);
      assert bets == [bets[0]] + bets[1..];
    }
  }

  /** With no cancelled bets, the Active and Completed tabs between them hold every bet exactly once. */
  lemma ActiveAndCompletedCoverAll(bets: seq<Bet>)
    requires forall i :: 0 <= i < |bets| ==> bets[i].status != Cancelled
    ensures multiset(ActiveBets(bets)) + multiset(CompletedBets(bets)) == multiset(bets)
  {
    StatusPartition(bets);
    Seqs.FilterEmptyIff(bets, IsCancelled);
  }

  /** No bet is both won and lost, and together they are at most the completed bets. */
  lemma WonAndLostDisjoint(bets: seq<Bet>)
    ensures forall b :: !(b in WonBets(bets) && b in LostBets(bets))
    ensures |WonBets(bets)| + |LostBets(bets)| <= |CompletedBets(bets)|
  {
    var c := CompletedBets(bets);
    Seqs.FilterComplement(c, IsWon, IsUnwon);
    Seqs.FilterMonotone(c, IsLost, IsUnwon);
    Seqs.SubseqLength(LostBets(bets), Seqs.Filter(c, IsUnwon));
  }

  /** `bet.payout?.amount || 0`: a missing payout counts as nothing. */
  function PayoutOf(b: Bet): int {
    if b.payout.Some? then b.payout.value.amount else 0
  }

  /** The sum of the payouts of a list of bets. */
  function PayoutSum(bets: seq<Bet>): (total: int)
    ensures (forall i :: 0 <= i < |bets| ==> PayoutOf(bets[i]) >= 0) ==> total >= 0
    ensures (forall i :: 0 <= i < |bets| ==> PayoutOf(bets[i]) <= 0) ==> total <= 0
    ensures (forall i :: 0 <= i < |bets| ==> bets[i].payout.None?) ==> total == 0
  {
    if bets == [] then 0 else PayoutOf(bets[0]) + PayoutSum(bets[1..])
  }

  /** The sum is additive over concatenation, and a single bet contributes `payout?.amount || 0`. */
  lemma {:induction false} PayoutSumConcat(a: seq<Bet>, b: seq<Bet>)
    ensures PayoutSum(a + b) == PayoutSum(a) + PayoutSum(b)
    ensures forall x :: PayoutSum([x]) == PayoutOf(x)
    decreases |a|
  {
    forall x ensures PayoutSum([x]) == PayoutOf(x) {
      assert [x][1..] == [];
    }
    if a == [] {
      assert a + b == b;
    } else {
      assert (a + b)[1..] == a[1..] + b;
      PayoutSumConcat(a[1..], b);
    }
  }

  /** Summing over a filter and over its complement gives the whole sum. */
  lemma {:induction false} PayoutSumSplit(bets: seq<Bet>, p: Bet -> bool, q: Bet -> bool)
    requires forall b :: q(b) == !p(b)
    ensures PayoutSum(Seqs.Filter(bets, p)) + PayoutSum(Seqs.Filter(bets, q)) == PayoutSum(bets)
    decreases |bets|
  {
    if bets != [] {
      PayoutSumSplit(bets[1..], p, q);
      var f := Seqs.Filter(bets[1..], p);
      var g := Seqs.Filter(bets[1..], q);
      if p(bets[0]) {
        assert Seqs.Filter(bets, p) == [bets[0]] + f;
        assert ([bets[0]] + f)[1..] == f;
      } else {
        assert Seqs.Filter(bets, q) == [bets[0]] + g;
        assert ([bets[0]] + g)[1..] == g;
      }
    }
  }

  /** The header's total: the payouts of the completed bets. */
  function TotalWinnings(bets: seq<Bet>): (total: int)
    ensures (forall i :: 0 <= i < |bets| ==> bets[i].status == Completed ==> PayoutOf(bets[i]) >= 0) ==> total >= 0
  {
    var c := CompletedBets(bets);
    assert forall i :: 0 <= i < |c| ==> c[i] in c;
    PayoutSum(c)
  }

  /**
   * The winnings are a sum over the bets: additive over concatenation, and a
   * single bet adds its payout when completed and nothing otherwise.
   */
  lemma TotalWinningsConcat(a: seq<Bet>, b: seq<Bet>)
    ensures TotalWinnings(a + b) == TotalWinnings(a) + TotalWinnings(b)
    ensures forall x :: TotalWinnings([x]) == (if x.status == Completed then PayoutOf(x) else 0)
  {
    Seqs.FilterConcat(a, b, IsCompleted);
    PayoutSumConcat(CompletedBets(a), CompletedBets(b));
    forall x ensures TotalWinnings([x]) == (if x.status == Completed then PayoutOf(x) else 0) {
      assert [x][1..] == [];
      if x.status == Completed {
        assert CompletedBets([x]) == [x];
      } else {
        assert CompletedBets([x]) == [];
      }
    }
  }

  /** Winnings are the won payouts plus everything else the completed bets paid. */
  lemma WinningsSplitByOutcome(bets: seq<Bet>)
    ensures TotalWinnings(bets)
      == PayoutSum(WonBets(bets)) + PayoutSum(Seqs.Filter(CompletedBets(bets), IsUnwon))
  {
    PayoutSumSplit(CompletedBets(bets), IsWon, IsUnwon);
  }

  /** The header's win rate, as a percentage: won over completed, or 0 with nothing completed. */
  function WinRate(bets: seq<Bet>): (rate: real)
    ensures 0.0 <= rate <= 100.0
    ensures rate == 0.0 <==> |WonBets(bets)| == 0
    ensures rate == 100.0 <==> |CompletedBets(bets)| > 0 && |WonBets(bets)| == |CompletedBets(bets)|
    ensures |CompletedBets(bets)| == 0 ==> rate == 0.0
    ensures |CompletedBets(bets)| > 0 ==> rate == 100.0 * (|WonBets(bets)| as real / |CompletedBets(bets)| as real)
  {
    Seqs.SubseqLength(WonBets(bets), CompletedBets(bets));
    RatioPercent(|WonBets(bets)|, |CompletedBets(bets)|)
  }

  /**
   * `done > 0 ? (won / done) * 100 : 0` for `won <= done`: the percentage
   * whose product with `done` is `100 * won`; 0 only for none, 100 only for all.
   */
  function RatioPercent(won: nat, done: nat): (p: real)
    requires won <= done
    ensures 0.0 <= p <= 100.0
    ensures p == 0.0 <==> won == 0
    ensures p == 100.0 <==> done > 0 && won == done
    ensures done == 0 ==> p == 0.0
    ensures done > 0 ==> p * done as real == 100.0 * won as real
    ensures done > 0 ==> p == 100.0 * (won as real / done as real)
  {
    if done == 0 then 0.0
    else
      var x := won as real / done as real;
      FractionBounds(won as real, done as real);
      assert (x * 100.0) * done as real == 100.0 * (x * done as real);
      x * 100.0
  }

  /** A fraction `a / d` of a positive `d` with `0 <= a <= d` lies in [0, 1] and times `d` gives back `a`. */
  lemma FractionBounds(a: real, d: real)
    requires 0.0 <= a <= d && 0.0 < d
    ensures (a / d) * d == a
    ensures 0.0 <= a / d <= 1.0
    ensures a / d == 0.0 <==> a == 0.0
    ensures a / d == 1.0 <==> a == d
  {
    var x := a / d;
    assert x * d == a;
    NonNegativeFactor(x, d);
    assert (1.0 - x) * d == d - a;
    NonNegativeFactor(1.0 - x, d);
  }

  /** A product with a positive factor that is not negative has a non-negative other factor. */
  lemma NonNegativeFactor(u: real, d: real)
    requires 0.0 < d && 0.0 <= u * d
    ensures 0.0 <= u
  {
  }

  /** The winnings figure with its sign: `+` for zero or more, `-` for a loss. */
  function WinningsText(total: int): (r: string)
    ensures r != []
    ensures r[0] == '+' <==> total >= 0
    ensures r[0] == '-' <==> total < 0
    ensures r[1..] == Text.IntToString(if total < 0 then -total else total)
  {
    if total >= 0 then "+" + Text.IntToString(total) else Text.IntToString(total)
  }

  /** The list behind the selected tab: "active" picks the active bets, any other tab the completed ones. */
  function TabBets(bets: seq<Bet>, tab: string): (r: seq<Bet>)
    ensures tab == "active" ==> r == ActiveBets(bets)
    ensures tab != "active" ==> r == CompletedBets(bets)
  {
    if tab == "active" then ActiveBets(bets) else CompletedBets(bets)
  }

  /**
   * `getFilteredBets`: "won" and "lost" replace the tab's list, "all"
   * keeps it, and any other chip keeps the tab's bets in that category.
   */
  function FilteredBets(bets: seq<Bet>, tab: string, filter: string): (r: seq<Bet>)
    ensures filter == "all" ==> r == TabBets(bets, tab)
    ensures filter == "won" ==> r == WonBets(bets)
    ensures filter == "lost" ==> r == LostBets(bets)
    ensures filter !in ["all", "won", "lost"] ==>
      (forall b :: b in r <==> b in TabBets(bets, tab) && b.category == filter) && Seqs.Subseq(r, TabBets(bets, tab))
  {
    var base := TabBets(bets, tab);
    if filter == "won" then WonBets(bets)
    else if filter == "lost" then LostBets(bets)
    else if filter != "all" then Seqs.Filter(base, (b: Bet) => b.category == filter)
    else base
  }

  /** "Won" and "Lost" show the same bets whichever tab is open. */
  lemma OutcomeFiltersIgnoreTab(bets: seq<Bet>, tab1: string, tab2: string)
    ensures FilteredBets(bets, tab1, "won") == FilteredBets(bets, tab2, "won")
    ensures FilteredBets(bets, tab1, "lost") == FilteredBets(bets, tab2, "lost")
  {
  }

  /** Whatever is selected, the listed bets appear in the player's bets in the same order. */
  lemma FilteredBetsInOrder(bets: seq<Bet>, tab: string, filter: string)
    ensures Seqs.Subseq(FilteredBets(bets, tab, filter), bets)
  {
    var base := TabBets(bets, tab);
    var r := FilteredBets(bets, tab, filter);
    if filter == "won" {
      Seqs.SubseqTrans(r, CompletedBets(bets), bets);
    } else if filter == "lost" {
      Seqs.SubseqTrans(r, CompletedBets(bets), bets);
    } else if filter != "all" {
      Seqs.SubseqTrans(r, base, bets);
    }
  }

  /** The fourth bet, which exists only on this page. */
  const StanleyCupBet: Bet := Bet(
    "bet-4", "Stanley Cup Finals 2025",
    "Who will win the Stanley Cup championship this year?",
    "nhl", Creator("user-7", "PuckMaster", Some("/avatars/puckmaster.jpg")),
    Completed, "2025-06-15T23:59:59Z", 892, None, 446000,
    [ BetOption("option-11", "Boston Bruins", 234, Some("+300")),
      BetOption("option-12", "Tampa Bay Lightning", 189, Some("+350")),
      BetOption("option-13", "Colorado Avalanche", 312, Some("+250")),
      BetOption("option-14", "Other Team", 157, Some("+400")) ],
    Some("option-13"), Some(Payout(-500, Lost)))

  /** The player's bets: the three shared bets with this player's pick, status and payout spread over them, then bet 4. */
  const UserBets: seq<Bet> := [
    MockData.MockBets[0].(userChoice := Some("option-1"), status := Active, payout := None),
    MockData.MockBets[1].(userChoice := Some("option-4"), status := Active, payout := None),
    MockData.MockBets[2].(userChoice := Some("option-7"), status := Completed, payout := Some(Payout(1250, Won))),
    StanleyCupBet
  ]

  /** The header for the demo data: two active, two completed, one won, one lost, +750 points, a 50% win rate. */
  lemma UserBetsSummary()
    ensures |ActiveBets(UserBets)| == 2 && |CompletedBets(UserBets)| == 2
    ensures |WonBets(UserBets)| == 1 && |LostBets(UserBets)| == 1
    ensures TotalWinnings(UserBets) == 750
    ensures WinRate(UserBets) == 50.0
  {
    SummaryOfShape(UserBets, 1250, -500);
  }

  /** Two active bets, then a completed win of `w` and a completed loss of `l`. */
  lemma SummaryOfShape(u: seq<Bet>, w: int, l: int)
    requires |u| == 4 && u[0].status == Active && u[1].status == Active
    requires u[2].status == Completed && u[2].payout == Some(Payout(w, Won))
    requires u[3].status == Completed && u[3].payout == Some(Payout(l, Lost))
    ensures |ActiveBets(u)| == 2 && |CompletedBets(u)| == 2
    ensures |WonBets(u)| == 1 && |LostBets(u)| == 1
    ensures TotalWinnings(u) == w + l
    ensures WinRate(u) == 50.0
  {
    var t1, t2, t3 := u[1..], u[1..][1..], u[1..][1..][1..];
    assert t3[1..] == [];
    assert Seqs.Filter(t3, IsActive) == [];
    assert Seqs.Filter(t2, IsActive) == [];
    assert Seqs.Filter(t1, IsActive) == [u[1]];
    assert ActiveBets(u) == [u[0], u[1]];
    assert Seqs.Filter(t3, IsCompleted) == [u[3]];
    assert Seqs.Filter(t2, IsCompleted) == [u[2], u[3]];
    assert Seqs.Filter(t1, IsCompleted) == [u[2], u[3]];
    var c := CompletedBets(u);
    assert c == [u[2], u[3]];
    assert c[1..] == [u[3]] && c[1..][1..] == [];
    assert WonBets(u) == [u[2]];
    assert LostBets(u) == [u[3]];
    assert PayoutSum(c) == w + PayoutSum([u[3]]);
  }

  /**
   * The picks stored on the first three bets do not match any option id
   * of those bets, whose ids keep the dataset's `{{...}}` markers, so their
   * cards highlight no pick.
   */
  lemma SharedBetsHighlightNoPick()
    ensures BetCard.Picks(UserBets[0].options, UserBets[0].userChoice) == []
    ensures BetCard.Picks(UserBets[1].options, UserBets[1].userChoice) == []
    ensures BetCard.Picks(UserBets[2].options, UserBets[2].userChoice) == []
  {
    MockData.MockBetsParticipantsAgree();
    assert UserBets[0].options == MockData.Bet1Options && UserBets[0].userChoice == Some("option-1");
    assert UserBets[1].options == MockData.Bet2Options && UserBets[1].userChoice == Some("option-4");
    assert UserBets[2].options == MockData.Bet3Options && UserBets[2].userChoice == Some("option-7");
    MarkedIds(MockData.Bet1Options);
    MarkedIds(MockData.Bet2Options);
    MarkedIds(MockData.Bet3Options);
    NoPickForMarkedIds(MockData.Bet1Options, "option-1");
    NoPickForMarkedIds(MockData.Bet2Options, "option-4");
    NoPickForMarkedIds(MockData.Bet3Options, "option-7");
  }

  /** The option ids of the three shared bets all begin with a marker's `{`. */
  lemma MarkedIds(options: seq<BetOption>)
    requires options in [MockData.Bet1Options, MockData.Bet2Options, MockData.Bet3Options]
    ensures forall k :: 0 <= k < |options| ==> options[k].id != [] && options[k].id[0] == '{'
  {
  }

  /** Bet 4's pick matches exactly one of its options. */
  lemma StanleyCupBetHighlightsOnePick()
    ensures BetCard.Picks(StanleyCupBet.options, StanleyCupBet.userChoice) == [StanleyCupBet.options[2]]
  {
    var o := StanleyCupBet.options;
    assert o[1..][1..][1..][1..] == [];
  }

  /** A plain pick never equals an id that starts with the `{` of a marker. */
  lemma NoPickForMarkedIds(options: seq<BetOption>, choice: string)
    requires choice != [] && choice[0] != '{'
    requires forall k :: 0 <= k < |options| ==> options[k].id != [] && options[k].id[0] == '{'
    ensures BetCard.Picks(options, Some(choice)) == []
  {
    BetCard.NoPickWithoutMatch(options, Some(choice));
  }

  /** None of the player's bets offers a Place Bet button: each already carries a pick. */
  lemma NoPlaceBetButtons(expired: bool)
    ensures forall i :: 0 <= i < |UserBets| ==>
      !BetCard.PlaceBetShown(UserBets[i].status, expired, UserBets[i].userChoice, true)
  {
  }
}

=== FILE: seqs.dfy ===
/**
 * Sequence operations behind the pages' `Array.prototype.filter`, `map`
 * and `slice`, with the facts the pages rely on: a filter keeps exactly the
 * matching elements and keeps them in their original order.
 */
module Seqs {

  function Min(a: int, b: int): int {
    if a <= b then a else b
  }

  /** `a` can be obtained from `b` by deleting elements: an order-preserving subsequence. */
  predicate Subseq<T(==)>(a: seq<T>, b: seq<T>)
    decreases |b|
  {
    a == [] || (|b| > 0 && ((a[0] == b[0] && Subseq(a[1..], b[1..])) || Subseq(a, b[1..])))
  }

  /** Every sequence is a subsequence of itself. */
  lemma {:induction false} SubseqRefl<T>(s: seq<T>)
    ensures Subseq(s, s)
    decreases |s|
  {
    if s != [] {
      SubseqRefl(s[1..]);
    }
  }

  /** A subsequence of a subsequence is a subsequence. */
  lemma {:induction false} SubseqTrans<T>(a: seq<T>, b: seq<T>, c: seq<T>)
    requires Subseq(a, b) && Subseq(b, c)
    ensures Subseq(a, c)
    decreases |c|
  {
    if a != [] {
      if b[0] == c[0] && Subseq(b[1..], c[1..]) {
        if a[0] == b[0] && Subseq(a[1..], b[1..]) {
          SubseqTrans(a[1..], b[1..], c[1..]);
        } else {
          SubseqTrans(a, b[1..], c[1..]);
        }
      } else {
        SubseqTrans(a, b, c[1..]);
      }
    }
  }

  /** A subsequence is never longer than the sequence it comes from. */
  lemma {:induction false} SubseqLength<T>(a: seq<T>, b: seq<T>)
    requires Subseq(a, b)
    ensures |a| <= |b|
    decreases |b|
  {
    if a != [] {
      if a[0] == b[0] && Subseq(a[1..], b[1..]) {
        SubseqLength(a[1..], b[1..]);
      } else {
        SubseqLength(a, b[1..]);
      }
    }
  }

  /** `s.filter(p)`: exactly the elements satisfying `p`, in their original order. */
  function Filter<T(==,!new)>(s: seq<T>, p: T -> bool): (r: seq<T>)
    ensures |r| <= |s|
    ensures forall x :: x in r <==> x in s && p(x)
    ensures forall i :: 0 <= i < |r| ==> p(r[i])
    ensures Subseq(r, s)
  {
    if s == [] then []
    else if p(s[0]) then [s[0]] + Filter(s[1..], p)
    else Filter(s[1..], p)
  }

  /** A filter keeps every copy of a passing element and no copy of a failing one. */
  lemma {:induction false} FilterMultiplicity<T(!new)>(s: seq<T>, p: T -> bool)
    ensures forall x :: multiset(Filter(s, p))[x] == (if p(x) then multiset(s)[x] else 0)
    decreases |s|
  {
    if s != [] {
      FilterMultiplicity(s[1..], p);
      assert s == [s[0]] + s[1..];
    }
  }

  /** A filter comes back empty exactly when no element passes it. */
  lemma FilterEmptyIff<T(!new)>(s: seq<T>, p: T -> bool)
    ensures Filter(s, p) == [] <==> forall i :: 0 <= i < |s| ==> !p(s[i])
  {
    var r := Filter(s, p);
    if r == [] {
      assert forall i :: 0 <= i < |s| ==> s[i] in s;
    } else {
      assert r[0] in r;
    }
  }

  /** A filter that every element passes returns its input unchanged. */
  lemma {:induction false} FilterKeepsAll<T(!new)>(s: seq<T>, p: T -> bool)
    requires forall i :: 0 <= i < |s| ==> p(s[i])
    ensures Filter(s, p) == s
    decreases |s|
  {
    if s != [] {
      FilterKeepsAll(s[1..], p);
    }
  }

  /** Filtering distributes over concatenation. */
  lemma {:induction false} FilterConcat<T(!new)>(a: seq<T>, b: seq<T>, p: T -> bool)
    ensures Filter(a + b, p) == Filter(a, p) + Filter(b, p)
    decreases |a|
  {
    if a == [] {
      assert a + b == b;
    } else {
      assert (a + b)[1..] == a[1..] + b;
      FilterConcat(a[1..], b, p);
    }
  }

  /**
   * Two filters with complementary predicates split a sequence: their
   * lengths add up and their elements together are exactly the input's.
   */
  lemma FilterComplement<T(!new)>(s: seq<T>, p: T -> bool, q: T -> bool)
    requires forall x :: q(x) == !p(x)
    ensures |Filter(s, p)| + |Filter(s, q)| == |s|
    ensures multiset(Filter(s, p)) + multiset(Filter(s, q)) == multiset(s)
  {
    FilterMultiplicity(s, p);
    FilterMultiplicity(s, q);
    var m := multiset(Filter(s, p)) + multiset(Filter(s, q));
    assert forall x :: m[x] == multiset(s)[x];
    assert m == multiset(s);
    assert |m| == |multiset(Filter(s, p))| + |multiset(Filter(s, q))|;
  }

  /** Filters whose predicates agree on the elements present give the same result. */
  lemma {:induction false} FilterEquiv<T(!new)>(s: seq<T>, p: T -> bool, q: T -> bool)
    requires forall x :: x in s ==> p(x) == q(x)
    ensures Filter(s, p) == Filter(s, q)
    decreases |s|
  {
    if s != [] {
      assert forall x :: x in s[1..] ==> x in s;
      FilterEquiv(s[1..], p, q);
    }
  }

  /** A weaker predicate keeps more: the stricter filter's result is a subsequence of the looser one's. */
  lemma {:induction false} FilterMonotone<T(!new)>(s: seq<T>, p: T -> bool, q: T -> bool)
    requires forall x :: x in s && p(x) ==> q(x)
    ensures Subseq(Filter(s, p), Filter(s, q))
    decreases |s|
  {
    if s != [] {
      assert forall x :: x in s[1..] ==> x in s;
      FilterMonotone(s[1..], p, q);
      var fp, fq := Filter(s[1..], p), Filter(s[1..], q);
      if p(s[0]) {
        assert Filter(s, p) == [s[0]] + fp && Filter(s, q) == [s[0]] + fq;
        assert ([s[0]] + fp)[1..] == fp && ([s[0]] + fq)[1..] == fq;
      } else if q(s[0]) {
        assert Filter(s, q) == [s[0]] + fq;
        assert ([s[0]] + fq)[1..] == fq;
        SubseqDropHead(Filter(s, p), s[0], fq);
      }
    }
  }

  /** Putting an element in front of the larger sequence keeps a subsequence a subsequence. */
  lemma SubseqDropHead<T>(a: seq<T>, x: T, b: seq<T>)
    requires Subseq(a, b)
    ensures Subseq(a, [x] + b)
  {
    assert ([x] + b)[1..] == b;
  }

  /** `s.slice(0, n)`: the first `n` elements, or all of them when there are fewer. */
  function Take<T>(s: seq<T>, n: nat): (r: seq<T>)
    ensures |r| == Min(n, |s|)
    ensures r <= s
  {
    s[..Min(n, |s|)]
  }

  /** `s.slice(n)`: everything after the first `n` elements. */
  function Drop<T>(s: seq<T>, n: nat): (r: seq<T>)
    ensures |r| == |s| - Min(n, |s|)
    ensures Take(s, n) + r == s
  {
    s[Min(n, |s|)..]
  }

  /** `s.map(f)`. */
  function Map<T, U>(s: seq<T>, f: T -> U): (r: seq<U>)
    ensures |r| == |s|
    ensures forall i :: 0 <= i < |s| ==> r[i] == f(s[i])
  {
    seq(|s|, i requires 0 <= i < |s| => f(s[i]))
  }
}

=== FILE: session.dfy ===
/**
 * The authentication provider: the session's user, the `loading` flag and
 * the browser's storage slot under the key `sportsbet_user`, with the
 * start-up check, sign-in, sign-up, sign-out and profile updates. Each
 * operation is taken as one step; the simulated network delays are gone.
 */
module Session {
  import opened Wrappers
  import opened Domain
  import Text
  import MockData

  /** The storage key the provider reads and writes. */
  const StorageKey := "sportsbet_user"

  /**
   * What the storage slot holds: a serialised user, or text that does not
   * parse as one. The empty string counts as absent at start-up.
   */
  datatype Stored = Encoded(user: User) | Unreadable(text: string)

  datatype Session = Session(user: Option<User>, store: Option<Stored>, loading: bool)

  /** On mount: no user yet, loading, and whatever the slot already holds. */
  function Initial(store: Option<Stored>): (s: Session)
    ensures s.user.None? && s.loading && s.store == store
  {
    Session(None, store, true)
  }

  /** The session and the slot agree: the slot holds exactly the signed-in user, or nothing. */
  predicate Synced(s: Session) {
    match s.user
    case Some(u) => s.store == Some(Encoded(u))
    case None => s.store.None?
  }

  /**
   * The start-up check. An empty or missing slot signs the demo user in and
   * stores it; a readable slot restores its user; unreadable text is
   * removed and leaves the user as it was. Loading ends in every case.
   */
  function CheckAuth(s: Session): (r: Session)
    ensures !r.loading
    ensures (s.store.None? || s.store == Some(Unreadable(""))) ==>
      r.user == Some(MockData.MockUser) && r.store == Some(Encoded(MockData.MockUser))
    ensures (s.store.Some? && s.store.value.Encoded?) ==> r.user == Some(s.store.value.user) && r.store == s.store
    ensures (s.store.Some? && s.store.value.Unreadable? && s.store.value.text != "") ==>
      r.user == s.user && r.store.None?
  {
    match s.store
    case None => Session(Some(MockData.MockUser), Some(Encoded(MockData.MockUser)), false)
    case Some(Unreadable(t)) =>
      if t == "" then Session(Some(MockData.MockUser), Some(Encoded(MockData.MockUser)), false)
      else s.(store := None, loading := false)
    case Some(Encoded(u)) => s.(user := Some(u), loading := false)
  }

  /** A page load: mount, then run the start-up check. */
  function Load(store: Option<Stored>): (r: Session)
    ensures !r.loading
    ensures store.Some? && store.value.Encoded? ==> r.user == Some(store.value.user)
  {
    CheckAuth(Initial(store))
  }

  /** Every page load ends synced. */
  lemma LoadIsSynced(store: Option<Stored>)
    ensures Synced(Load(store))
  {
  }

  /** A corrupt slot is cleared on load and the visitor stays signed out; the next load seeds the demo user. */
  lemma CorruptStoreRecovers(text: string)
    requires text != ""
    ensures Load(Some(Unreadable(text))).user.None?
    ensures Load(Load(Some(Unreadable(text))).store).user == Some(MockData.MockUser)
  {
  }

  /** The two errors the provider throws, with their messages. */
  datatype AuthError = InvalidCredentials | MissingFields

  function Message(e: AuthError): (m: string)
    ensures m != []
  {
    match e
    case InvalidCredentials => "Invalid credentials"
    case MissingFields => "All fields are required"
  }

  datatype Outcome = Success | Failure(error: AuthError)

  /** A session after an operation, and whether the operation threw. */
  datatype Reply = Reply(session: Session, outcome: Outcome)

  /**
   * Sign-in accepts any non-empty email and password: the user becomes the
   * demo user with that email, and is stored. Otherwise it throws "Invalid
   * credentials" and changes nothing but the loading flag.
   */
  function SignIn(s: Session, email: string, password: string): (r: Reply)
    ensures !r.session.loading
    ensures r.outcome.Success? <==> email != "" && password != ""
    ensures r.outcome.Success? ==>
      r.session.user == Some(MockData.MockUser.(email := email)) && r.session.store == Some(Encoded(r.session.user.value))
    ensures r.outcome.Failure? ==>
      r.outcome.error == InvalidCredentials && r.session.user == s.user && r.session.store == s.store
  {
    if email != "" && password != "" then
      var u := MockData.MockUser.(email := email);
      Reply(Session(Some(u), Some(Encoded(u)), false), Success)
    else Reply(s.(loading := false), Failure(InvalidCredentials))
  }

  /** The badge every new account starts with. */
  const NewPlayerBadge := Badge("newbie", "New Player", Bronze)

  /** A fresh account: `user-<now>`, level 1, 1000 starting points, an outsider's rank and empty records. */
  function NewUser(name: string, email: string, now: nat): (u: User)
    ensures u.name == name && u.email == email && u.avatar.None?
    ensures u.id == "user-" + Text.NatToString(now)
    ensures u.level == 1 && u.points == 1000 && u.rank == 999999
    ensures u.winRate == 0 && u.totalBets == 0 && u.activeBets == 0 && u.notifications == 0
    ensures u.joinedCommunities == [] && u.badges == [NewPlayerBadge]
    ensures u.stats.allTime.pointsEarned == u.points
    ensures u.stats == UserStats(WindowStats(0, 0, 0, 0), WindowStats(0, 0, 0, 0), AllTimeStats(0, 0, 1000, 0, 0, 0))
  {
    var empty := WindowStats(0, 0, 0, 0);
    User("user-" + Text.NatToString(now), name, email, None, 1, 1000, 999999, 0, 0, 0, 0, [], [NewPlayerBadge],
      UserStats(empty, empty, AllTimeStats(0, 0, 1000, 0, 0, 0)))
  }

  /** Accounts made at different instants get different ids. */
  lemma NewUserIdsDistinct(name1: string, email1: string, t1: nat, name2: string, email2: string, t2: nat)
    requires t1 != t2
    ensures NewUser(name1, email1, t1).id != NewUser(name2, email2, t2).id
  {
    var a, b := NewUser(name1, email1, t1).id, NewUser(name2, email2, t2).id;
    assert a[5..] == Text.NatToString(t1);
    assert b[5..] == Text.NatToString(t2);
    Text.NatToStringInjective(t1, t2);
  }

  /**
   * Sign-up with non-empty name, email and password creates and stores a
   * fresh account; otherwise it throws "All fields are required". The
   * clock reading `now` stands for `Date.now()`.
   */
  function SignUp(s: Session, name: string, email: string, password: string, now: nat): (r: Reply)
    ensures !r.session.loading
    ensures r.outcome.Success? <==> name != "" && email != "" && password != ""
    ensures r.outcome.Success? ==>
      r.session.user == Some(NewUser(name, email, now)) && r.session.store == Some(Encoded(NewUser(name, email, now)))
    ensures r.outcome.Failure? ==>
      r.outcome.error == MissingFields && r.session.user == s.user && r.session.store == s.store
  {
    if name != "" && email != "" && password != "" then
      var u := NewUser(name, email, now);
      Reply(Session(Some(u), Some(Encoded(u)), false), Success)
    else Reply(s.(loading := false), Failure(MissingFields))
  }

  /** Sign-out clears the user and the slot. */
  function SignOut(s: Session): (r: Session)
    ensures r.user.None? && r.store.None? && !r.loading
  {
    Session(None, None, false)
  }

  /** Signing out twice is signing out once. */
  lemma SignOutIdempotent(s: Session)
    ensures SignOut(SignOut(s)) == SignOut(s)
  {
  }

  /** Signing out does not survive a reload: the empty slot makes the next load sign the demo user in. */
  lemma SignOutThenReload(s: Session)
    ensures Load(SignOut(s).store).user == Some(MockData.MockUser)
  {
  }

  /**
   * A `Partial<User>`: a field is `None` when the update leaves it out.
   * For the optional avatar, `Some(None)` is an update that clears it.
   */
  datatype UserPatch = UserPatch(
    id: Option<string>,
    name: Option<string>,
    email: Option<string>,
    avatar: Option<Option<string>>,
    level: Option<int>,
    points: Option<int>,
    rank: Option<int>,
    winRate: Option<int>,
    totalBets: Option<int>,
    activeBets: Option<int>,
    notifications: Option<int>,
    joinedCommunities: Option<seq<string>>,
    badges: Option<seq<Badge>>,
    stats: Option<UserStats>)

  const EmptyPatch := UserPatch(None, None, None, None, None, None, None, None, None, None, None, None, None, None)

  /** `{ ...user, ...updates }`: each field the update carries replaces the user's; the others stay. */
  function Merge(u: User, p: UserPatch): (r: User)
    ensures r.id == p.id.GetOr(u.id) && r.name == p.name.GetOr(u.name) && r.email == p.email.GetOr(u.email)
    ensures r.avatar == p.avatar.GetOr(u.avatar)
    ensures r.level == p.level.GetOr(u.level) && r.points == p.points.GetOr(u.points) && r.rank == p.rank.GetOr(u.rank)
    ensures r.winRate == p.winRate.GetOr(u.winRate) && r.totalBets == p.totalBets.GetOr(u.totalBets)
    ensures r.activeBets == p.activeBets.GetOr(u.activeBets) && r.notifications == p.notifications.GetOr(u.notifications)
    ensures r.joinedCommunities == p.joinedCommunities.GetOr(u.joinedCommunities)
    ensures r.badges == p.badges.GetOr(u.badges) && r.stats == p.stats.GetOr(u.stats)
  {
    User(p.id.GetOr(u.id), p.name.GetOr(u.name), p.email.GetOr(u.email), p.avatar.GetOr(u.avatar),
      p.level.GetOr(u.level), p.points.GetOr(u.points), p.rank.GetOr(u.rank), p.winRate.GetOr(u.winRate),
      p.totalBets.GetOr(u.totalBets), p.activeBets.GetOr(u.activeBets), p.notifications.GetOr(u.notifications),
      p.joinedCommunities.GetOr(u.joinedCommunities), p.badges.GetOr(u.badges), p.stats.GetOr(u.stats))
  }

  /** One option field of two updates applied in turn: the later one wins where it says something. */
  function Later<T>(first: Option<T>, second: Option<T>): Option<T> {
    if second.Some? then second else first
  }

  /** Two updates in a row, as one. */
  function Compose(p: UserPatch, q: UserPatch): UserPatch {
    UserPatch(Later(p.id, q.id), Later(p.name, q.name), Later(p.email, q.email), Later(p.avatar, q.avatar),
      Later(p.level, q.level), Later(p.points, q.points), Later(p.rank, q.rank), Later(p.winRate, q.winRate),
      Later(p.totalBets, q.totalBets), Later(p.activeBets, q.activeBets), Later(p.notifications, q.notifications),
      Later(p.joinedCommunities, q.joinedCommunities), Later(p.badges, q.badges), Later(p.stats, q.stats))
  }

  /** An empty update changes nothing, and two updates merge like their composition. */
  lemma MergeLaws(u: User, p: UserPatch, q: UserPatch)
    ensures Merge(u, EmptyPatch) == u
    ensures Merge(Merge(u, p), q) == Merge(u, Compose(p, q))
  {
  }

  /** A profile update: merged and stored when signed in; with no user, nothing happens. The loading flag is untouched. */
  function UpdateUser(s: Session, p: UserPatch): (r: Session)
    ensures r.loading == s.loading
    ensures s.user.None? ==> r == s
    ensures s.user.Some? ==> r.user == Some(Merge(s.user.value, p)) && r.store == Some(Encoded(Merge(s.user.value, p)))
  {
    match s.user
    case None => s
    case Some(u) => s.(user := Some(Merge(u, p)), store := Some(Encoded(Merge(u, p))))
  }

  /** Every operation keeps the session and the slot in agreement. */
  lemma OperationsPreserveSynced(s: Session, name: string, email: string, password: string, now: nat, p: UserPatch)
    requires Synced(s)
    ensures Synced(SignIn(s, email, password).session)
    ensures Synced(SignUp(s, name, email, password, now).session)
    ensures Synced(SignOut(s))
    ensures Synced(UpdateUser(s, p))
  {
  }

  /** A synced, signed-in session reloads to the same user. */
  lemma ReloadKeepsUser(s: Session)
    requires Synced(s) && s.user.Some?
    ensures Load(s.store).user == s.user
  {
  }
}

=== FILE: text.dfy ===
/**
 * The string operations the front-end relies on: `String.prototype.trim`,
 * `toLowerCase`, `includes`, `startsWith` and the decimal rendering of
 * integers (`Number.prototype.toString`, template-literal interpolation).
 */
module Text {

  /** ECMAScript WhiteSpace and LineTerminator code points: what `trim` removes. */
  predicate IsSpace(c: char) {
    || c == '\t' || c == '\n' || c == '\U{000B}' || c == '\U{000C}' || c == '\r'
    || c == ' ' || c == '\U{00A0}' || c == '\U{1680}'
    || ('\U{2000}' <= c <= '\U{200A}')
    || c == '\U{2028}' || c == '\U{2029}' || c == '\U{202F}' || c == '\U{205F}'
    || c == '\U{3000}' || c == '\U{FEFF}'
  }

  /** A string that `trim` reduces to the empty string (JavaScript-falsy once trimmed). */
  ghost predicate IsBlank(s: string) {
    forall k :: 0 <= k < |s| ==> IsSpace(s[k])
  }

  /** `trimStart`: drops the leading white space and nothing else. */
  function TrimStart(s: string): (r: string)
    ensures |r| <= |s| && r == s[|s| - |r|..]
    ensures r == [] || !IsSpace(r[0])
    ensures forall k :: 0 <= k < |s| - |r| ==> IsSpace(s[k])
  {
    if s == [] || !IsSpace(s[0]) then s
    else
      var rest := TrimStart(s[1..]);
      assert forall k :: 1 <= k < |s| - |rest| ==> s[k] == s[1..][k - 1];
      rest
  }

  /** `trimEnd`: drops the trailing white space and nothing else. */
  function TrimEnd(s: string): (r: string)
    ensures |r| <= |s| && r == s[..|r|]
    ensures r == [] || !IsSpace(r[|r| - 1])
    ensures forall k :: |r| <= k < |s| ==> IsSpace(s[k])
  {
    if s == [] || !IsSpace(s[|s| - 1]) then s
    else
      var rest := TrimEnd(s[..|s| - 1]);
      assert forall k :: |rest| <= k < |s| - 1 ==> s[k] == s[..|s| - 1][k];
      rest
  }

  /** `trim`: the empty string exactly when `s` is blank; otherwise it starts and ends with a visible character. */
  function Trim(s: string): (r: string)
    ensures |r| <= |s|
    ensures r == [] <==> IsBlank(s)
    ensures r != [] ==> !IsSpace(r[0]) && !IsSpace(r[|r| - 1])
  {
    TrimBlankFacts(s);
    TrimEnd(TrimStart(s))
  }

  lemma TrimBlankFacts(s: string)
    ensures TrimEnd(TrimStart(s)) == [] <==> IsBlank(s)
    ensures TrimEnd(TrimStart(s)) != [] ==> !IsSpace(TrimStart(s)[0])
  {
    var t := TrimStart(s);
    var r := TrimEnd(t);
    if r != [] {
      assert r[0] == t[0];
      assert t[0] == s[|s| - |t|];
    }
  }

  /** ASCII case folding, the part of `toLowerCase` the model keeps. */
  function LowerChar(c: char): char {
    if 'A' <= c <= 'Z' then (c as int + 32) as char else c
  }

  function Lower(s: string): (r: string)
    ensures |r| == |s|
    ensures forall k :: 0 <= k < |r| ==> r[k] == LowerChar(s[k])
  {
    seq(|s|, k requires 0 <= k < |s| => LowerChar(s[k]))
  }

  /** Lower-casing twice is lower-casing once. */
  lemma LowerIdempotent(s: string)
    ensures Lower(Lower(s)) == Lower(s)
  {
    assert forall k :: 0 <= k < |s| ==> Lower(Lower(s))[k] == Lower(s)[k];
  }

  /** `s.includes(sub)`: `sub` occurs in `s` at some position. */
  predicate Contains(s: string, sub: string)
    decreases |s|
  {
    sub <= s || (s != [] && Contains(s[1..], sub))
  }

  /** `sub` occurs in `s` starting at index `i`. */
  ghost predicate OccursAt(s: string, sub: string, i: int) {
    0 <= i <= |s| - |sub| && s[i..i + |sub|] == sub
  }

  /** `includes` agrees with "there is an index where `sub` occurs". */
  lemma {:induction false} ContainsIffOccurs(s: string, sub: string)
    ensures Contains(s, sub) <==> exists i :: OccursAt(s, sub, i)
    decreases |s|
  {
    if sub <= s {
      assert OccursAt(s, sub, 0);
    } else if s == [] {
      assert forall i :: !OccursAt(s, sub, i);
    } else {
      ContainsIffOccurs(s[1..], sub);
      if exists i :: OccursAt(s, sub, i) {
        var i :| OccursAt(s, sub, i);
        assert i != 0;
        assert OccursAt(s[1..], sub, i - 1) by {
          assert s[1..][i - 1..i - 1 + |sub|] == s[i..i + |sub|];
        }
      }
      if Contains(s[1..], sub) {
        var j :| OccursAt(s[1..], sub, j);
        assert OccursAt(s, sub, j + 1) by {
          assert s[1..][j..j + |sub|] == s[j + 1..j + 1 + |sub|];
        }
      }
    }
  }

  /** The empty string occurs in every string, so an empty search matches everything. */
  lemma ContainsEmpty(s: string)
    ensures Contains(s, "")
  {
  }

  function DigitChar(d: nat): (c: char)
    requires d < 10
    ensures '0' <= c <= '9'
  {
    ('0' as int + d) as char
  }

  /** Decimal rendering of a natural number, without leading zeros. */
  function NatToString(n: nat): (r: string)
    ensures |r| >= 1
    ensures forall k :: 0 <= k < |r| ==> '0' <= r[k] <= '9'
    ensures (|r| == 1) <==> (n < 10)
    ensures r[0] == '0' ==> n == 0
    decreases n
  {
    if n < 10 then [DigitChar(n)] else NatToString(n / 10) + [DigitChar(n % 10)]
  }

  /** Distinct numbers have distinct decimal renderings. */
  lemma {:induction false} NatToStringInjective(m: nat, n: nat)
    ensures NatToString(m) == NatToString(n) ==> m == n
    decreases m
  {
    if NatToString(m) == NatToString(n) {
      if m < 10 && n < 10 {
        assert DigitChar(m) == NatToString(m)[0] == NatToString(n)[0] == DigitChar(n);
      } else if m >= 10 && n >= 10 {
        var a, b := NatToString(m), NatToString(n);
        assert a[|a| - 1] == DigitChar(m % 10);
        assert b[|b| - 1] == DigitChar(n % 10);
        assert a[..|a| - 1] == NatToString(m / 10);
        assert b[..|b| - 1] == NatToString(n / 10);
        NatToStringInjective(m / 10, n / 10);
      }
    }
  }

  /** `String(i)` for an integer. */
  function IntToString(i: int): (r: string)
    ensures i < 0 <==> (r != [] && r[0] == '-')
    ensures i >= 0 ==> r == NatToString(i)
  {
    if i < 0 then "-" + NatToString(-i) else NatToString(i)
  }

  /** Integer renderings consist of digits and an optional leading minus sign. */
  lemma IntToStringHasNoSlash(i: int)
    ensures '/' !in IntToString(i)
  {
    var r := IntToString(i);
    if i < 0 {
      assert forall k :: 1 <= k < |r| ==> r[k] == NatToString(-i)[k - 1];
    }
  }
}

=== FILE: wrappers.dfy ===
/** Optional values: the model's stand-in for TypeScript's `T | undefined` and `T | null`. */
module Wrappers {

  datatype Option<+T> = None | Some(value: T) {

    /** The carried value, or `default` when there is none. */
    function GetOr(default: T): T {
      match this
      case Some(v) => v
      case None => default
    }
  }
}
